=== FILE: README.md ===
# Activity scheduler — a Dafny model

This project models the activity-hour allocation engine of a study planner, the HTTP endpoint in front of it, and two string helpers from the data-preparation scripts.

**The scheduler** (`scheduler.py`) receives an activity and a window of calendar days. The activity has estimated hours, a strategy (`Agresiva`, `Calmada` or `Completa`), an optional start date and an end date. Each calendar day has a date, a day type and the hours already busy. The scheduler works in four steps:

1. It builds a busy-hours table from the calendar. A later entry for the same date overwrites an earlier one.
2. It tries candidate end dates in a fixed order: end, end+1, end+2, end+3, end−1, end−2, end−3. With a start date, only candidates from the start date on are kept.
3. For each candidate it computes the window's days that still have free time. A `Normal` day holds 4 hours and any other day holds 8. It then searches for integer hour assignments:
   - each day is bounded by min(free time, capacity);
   - the hours add up exactly to the estimate;
   - a solution callback records at most 5 solutions, keeping only days with positive hours;
   - the aggressive strategy ranks its solutions by the hours of their first three entries (descending), then by the date of their first entry.
4. The first candidate with solutions wins. Each solution is formatted as a schedule plus a modified calendar, where a day is `Ocupado` exactly when its assigned hours equal its capacity. The result code is:
   - 200 when the end date was kept;
   - 201 when it was moved;
   - 401 when no candidate worked;
   - 505 for an unknown strategy.

**The endpoint** (`api_controller.py`) validates the request before calling the scheduler:
- field domains;
- no unknown activity fields;
- calendar length: with a start date, at least (end − start) + 1 + 3 days; without one, exactly 21.

It then maps the code to a response.

**The string helpers:**
- `expandir_rangos` expands a week cell ("a-b", "a, b, c", "n: …", "n") into week numbers.
- `format_text` with no pattern deletes tabs and drops empty and single-space lines.

Modelling choices:
- Dates are integer day numbers, and "d + i days" is `d + i`.
- The constraint solver is replaced by `Allocation.Assignments`. It enumerates every bounded assignment that meets the sum, each exactly once, depth first. The aggressive strategy tries values largest first and the others smallest first.
- The solution callback (`Allocation.Collect`) is modelled as written over that stream.
- The scheduler's result is the sum type `Solved(code, solutions) | Failed(code)`.
- A validation failure is a 422 response.
- A date listed twice in the calendar is offered twice, like in the source: each listing becomes its own solver variable, so that date can be booked up to twice its free time (`Scheduler.DuplicateDateOverbooks`). Two different assignments can then give the same solution, so a collection can record it twice (`Scheduler.DuplicateDateRepeatsSolution`). With each date listed once, no schedule repeats a date (`Scheduler.OutputDatesUnique`) and no run repeats a solution (`Scheduler.AttemptDistinct`).
- The result of `format_text` has no empty line when split on "\n", except when the result is the empty string itself: `"".split("\n")` is `[""]`. `LineCleaner.FormatText` states it that way.

Modules, in dependency order:
- `Wrappers` (Option, Result, Min)
- `Text` (Python string operations)
- `WeekSpec`
- `LineCleaner`
- `Calendar`
- `Allocation`
- `Ranking`
- `Scheduler`
- `Api`

## Model

| member | source | states |
|---|---|---|
| Calendar.Capacity | 02-Componentes/Codigo/Scheduler/scheduler.py:49 | a day holds 4 hours exactly when its type is "Normal", otherwise 8 |
| Calendar.BusyMapLastWins | 02-Componentes/Codigo/Scheduler/scheduler.py:156-158 | the busy table holds exactly the calendar's dates, and each date maps to the busy hours of the last entry carrying it |
| Calendar.WindowStart | 02-Componentes/Codigo/Scheduler/scheduler.py:41-44 | the window starts at the start date, or 14 days before the candidate end date when there is none |
| Calendar.AvailableIn | 02-Componentes/Codigo/Scheduler/scheduler.py:45-58 | every offered day lies in [lower, end] and carries its capacity minus its busy hours as free time, which is positive; no more days than calendar entries |
| Calendar.AvailableInConcat | 02-Componentes/Codigo/Scheduler/scheduler.py:46-57 | the offered days are the calendar filtered entry by entry in calendar order: one entry gives its day when eligible and nothing otherwise, and a calendar split in two offers the first part's days followed by the second's |
| Calendar.AvailableInUniqueDates | 02-Componentes/Codigo/Scheduler/scheduler.py:46-57 | a calendar that lists each date once offers each date at most once |
| Calendar.DuplicateDateOfferedTwice | 02-Componentes/Codigo/Scheduler/scheduler.py:46-57 | e.g. the calendar listing Normal day 0 twice offers day 0 twice, each time with its full 4 free hours (`Calendar.AvailableInConcat` gives the general case) |
| Calendar.AvailableInMembers | 02-Componentes/Codigo/Scheduler/scheduler.py:45-58 | a day is offered iff some calendar entry lies in [lower, end] with positive capacity minus busy hours, and it is that entry with that free time |
| Allocation.Limits | 02-Componentes/Codigo/Scheduler/scheduler.py:68-72 | one bound per available day, equal to min(free time, capacity) |
| Allocation.Values | 02-Componentes/Codigo/Scheduler/scheduler.py:71 | a variable takes exactly the values 0..bound, each once |
| Allocation.AssignmentsExact | 02-Componentes/Codigo/Scheduler/scheduler.py:68-73 | an assignment is enumerated iff it has one value per day, each within 0..bound, and the values sum to the estimate |
| Allocation.AssignmentsDistinct | 02-Componentes/Codigo/Scheduler/scheduler.py:84 | the search reports no assignment twice |
| Allocation.FeasibleIffWithinBounds | 02-Componentes/Codigo/Scheduler/scheduler.py:68-73 | the constraint system has a solution iff 0 <= estimate <= sum of the bounds |
| Allocation.Entries | 02-Componentes/Codigo/Scheduler/scheduler.py:17-27 | every recorded entry has positive hours |
| Allocation.EntriesFrom | 02-Componentes/Codigo/Scheduler/scheduler.py:17-27 | every recorded entry is the date, type and value of one of the days |
| Allocation.EntriesConcat | 02-Componentes/Codigo/Scheduler/scheduler.py:19-27 | entries are recorded day by day in day order: one day gives its entry when its value is positive and nothing otherwise, and two consecutive stretches of days give their entries one after the other |
| Allocation.EntriesUniqueDates | 02-Componentes/Codigo/Scheduler/scheduler.py:19-27 | days with distinct dates give a solution with distinct dates |
| Allocation.EntriesHours | 02-Componentes/Codigo/Scheduler/scheduler.py:17-27 | for a non-negative assignment the recorded hours total its sum; nothing is recorded iff no day has positive hours |
| Allocation.Collect | 02-Componentes/Codigo/Scheduler/scheduler.py:16-32 | the callback records min(quota, number of accepted assignments) solutions, each the entries of an accepted assignment (hours = estimate, non-empty) from the stream |
| Allocation.SolveSucceedsIff | 02-Componentes/Codigo/Scheduler/scheduler.py:28 | a window yields solutions iff 0 < estimate <= its free hours, so an estimate of 0 never yields one |
| Allocation.CollectConcat | 02-Componentes/Codigo/Scheduler/scheduler.py:16-32 | the callback records the stream in order: two stream parts record the first part's solutions followed by the second's, under the quota the first part left over |
| Allocation.CollectSingle | 02-Componentes/Codigo/Scheduler/scheduler.py:16-32 | a single assignment is recorded once, as its entries, exactly when quota remains and it is accepted (hours = estimate, non-empty); otherwise nothing is recorded |
| Allocation.EntriesInjective | 02-Componentes/Codigo/Scheduler/scheduler.py:19-27 | over days with distinct dates, two non-negative assignments with the same entries are equal |
| Allocation.CollectDistinct | 02-Componentes/Codigo/Scheduler/scheduler.py:16-32 | from a stream without repeats, over days with distinct dates, the callback never records a solution twice |
| Allocation.SolveDistinct | 02-Componentes/Codigo/Scheduler/scheduler.py:16-32 | over days with distinct dates the recorded solutions are pairwise different |
| Allocation.SolveCount | 02-Componentes/Codigo/Scheduler/scheduler.py:31-32 | with a positive estimate, exactly min(5, number of solutions of the system) are recorded |
| Allocation.SolveUniqueDates | 02-Componentes/Codigo/Scheduler/scheduler.py:16-32 | over days with distinct dates, no recorded solution books a date twice |
| Allocation.SolveSound | 02-Componentes/Codigo/Scheduler/scheduler.py:16-30 | each recorded solution is non-empty, sums to the estimate, and gives every entry positive hours within the bound of an available day with the same date and type |
| Ranking.Insert | 02-Componentes/Codigo/Scheduler/scheduler.py:86-88 | insertion adds the solution to the multiset of solutions and keeps all solutions non-empty |
| Ranking.InsertRanked | 02-Componentes/Codigo/Scheduler/scheduler.py:86-88 | inserting into a ranked list gives a ranked list |
| Ranking.RankAggressive | 02-Componentes/Codigo/Scheduler/scheduler.py:86-88 | the ranking is a permutation in which each solution has at least the lead hours of every later one, and no later first date when lead hours tie |
| Ranking.InsertStable | 02-Componentes/Codigo/Scheduler/scheduler.py:86-88 | insertion keeps the relative order of the solutions sharing any sort key |
| Ranking.RankAggressiveStable | 02-Componentes/Codigo/Scheduler/scheduler.py:86-88 | solutions with equal sort keys keep their collection order (the sort is stable) |
| Scheduler.ParseStrategy | 02-Componentes/Codigo/Scheduler/scheduler.py:161-196 | a recognised name is the name of the strategy it selects |
| Scheduler.ParseStrategyName | 02-Componentes/Codigo/Scheduler/scheduler.py:161-196 | each strategy's name selects it, and a name is unknown iff it names no strategy |
| Scheduler.KeepWithin | 02-Componentes/Codigo/Scheduler/scheduler.py:155 | the filter keeps exactly the dates within the bounds |
| Scheduler.KeepWithinOrdered | 02-Componentes/Codigo/Scheduler/scheduler.py:155 | the filter preserves priority order |
| Scheduler.CandidateEnds | 02-Componentes/Codigo/Scheduler/scheduler.py:151-155 | the candidates are exactly the dates within three days of the end date, not before the start date when there is one, in strictly increasing priority (0, +1, +2, +3, -1, -2, -3) |
| Scheduler.Attempt | 02-Componentes/Codigo/Scheduler/scheduler.py:60-145 | one strategy run yields at most 5 solutions, and some iff the estimate is positive and fits the window's free hours |
| Scheduler.AttemptSound | 02-Componentes/Codigo/Scheduler/scheduler.py:16-30 | every solution of a run is non-empty, totals the estimate, and fits the candidate's window entry by entry |
| Scheduler.AttemptUniqueDates | 02-Componentes/Codigo/Scheduler/scheduler.py:39-145 | over a calendar that lists each date once, no solution of a strategy run books a date twice |
| Scheduler.AttemptCount | 02-Componentes/Codigo/Scheduler/scheduler.py:84-86 | a run returns min(5, number of solutions of the window's system) results for a positive estimate and none otherwise; ranking keeps the count |
| Scheduler.AttemptDistinct | 02-Componentes/Codigo/Scheduler/scheduler.py:84-90 | over a calendar that lists each date once, a run (ranked or not) never returns the same solution twice |
| Scheduler.DuplicateDateRepeatsSolution | 02-Componentes/Codigo/Scheduler/scheduler.py:16-30 | with Normal day 0 listed twice, the assignments (4, 0) and (0, 4) are both accepted and both read as 4 hours on day 0, so a collection can record the same solution twice |
| Scheduler.DuplicateDateOverbooks | 02-Componentes/Codigo/Scheduler/scheduler.py:45-73 | a calendar listing Normal day 0 twice admits an 8-hour activity ending on day 0, although a Normal day holds 4 hours |
| Scheduler.AttemptRanked | 02-Componentes/Codigo/Scheduler/scheduler.py:86-88 | the aggressive run is ranked and is a permutation of the solutions collected with largest-first values |
| Scheduler.Outcomes | 02-Componentes/Codigo/Scheduler/scheduler.py:163-194 | entry k tells whether the run for candidate k yields solutions, which is exactly when that candidate fits |
| Scheduler.FirstTrue | 02-Componentes/Codigo/Scheduler/scheduler.py:163-194 | the position found is the first true entry, and there is none iff every entry is false |
| Scheduler.FirstSuccess | 02-Componentes/Codigo/Scheduler/scheduler.py:163-194 | no candidate is chosen iff none fits; otherwise the chosen one fits and every earlier one does not |
| Scheduler.Status | 02-Componentes/Codigo/Scheduler/scheduler.py:206-214 | a day is Ocupado iff its assigned hours equal its type's capacity, whatever hours were already busy |
| Scheduler.FormatSolution | 02-Componentes/Codigo/Scheduler/scheduler.py:201-220 | the output keeps every entry's date and hours in the schedule and its date, type and status in the modified calendar, entry by entry, under the chosen end date |
| Scheduler.Unformat | 02-Componentes/Codigo/Scheduler/scheduler.py:204-215 | reading an output back yields one entry per schedule line with that line's date and hours and its calendar line's type |
| Scheduler.UnformatFormat | 02-Componentes/Codigo/Scheduler/scheduler.py:201-220 | formatting loses nothing: the solution is recovered from its output form |
| Scheduler.ScheduledHours | 02-Componentes/Codigo/Scheduler/scheduler.py:204-210 | a formatted schedule has the solution's hours |
| Scheduler.SearchDayToAssign | 02-Componentes/Codigo/Scheduler/scheduler.py:148-229 | the code is 200, 201, 401 or 505; 505 iff the strategy is unknown; solutions come only with 200/201, between 1 and 5 of them, each carrying the nominal end date iff the code is 200 |
| Scheduler.NotAssignedIff | 02-Componentes/Codigo/Scheduler/scheduler.py:163-229 | the code is 401 iff the strategy is known and no candidate end date leaves room for the estimate |
| Scheduler.ZeroHoursNotAssigned | 02-Componentes/Codigo/Scheduler/scheduler.py:28 | an estimate of 0 hours is answered 401 |
| Scheduler.ChosenEndIsFirstFit | 02-Componentes/Codigo/Scheduler/scheduler.py:151-217 | every output solution carries the same end date; it is a candidate that fits, and every candidate of higher priority does not fit |
| Scheduler.EarlierCandidatesFail | 02-Componentes/Codigo/Scheduler/scheduler.py:163-172 | the first fit in the candidate list beats every candidate of higher priority |
| Scheduler.OutputSound | 02-Componentes/Codigo/Scheduler/scheduler.py:39-220 | every output schedule totals the estimate, and each line is a calendar day of the window ending at the new end date with positive hours at most capacity minus busy hours |
| Scheduler.OutputDatesUnique | 02-Componentes/Codigo/Scheduler/scheduler.py:39-220 | when the calendar lists each date once, no output schedule books a date twice |
| Scheduler.AggressiveOutputRanked | 02-Componentes/Codigo/Scheduler/scheduler.py:86-88 | the aggressive strategy's output solutions are in ranking order |
| Api.CheckCalendarDays | 02-Componentes/Codigo/Scheduler/api_controller.py:30-44 | the check passes iff the calendar has at least (end - start) + 1 + 3 days with a start date, or exactly 21 without; a failure reports the given length |
| Api.Validate | 02-Componentes/Codigo/Scheduler/api_controller.py:12-44 | a request is accepted iff every field is in its domain, no unknown activity field is present and the calendar length passes; a length failure is reported only for well-formed fields |
| Api.Respond | 02-Componentes/Codigo/Scheduler/api_controller.py:53-71 | 200 and 201 give a body with that status, the code, its message and the solutions; 401, 505 and any other code give the matching error and detail (400 "Unknown Code" for the rest) |
| Api.CreateCalendarScheduledActivities | 02-Componentes/Codigo/Scheduler/api_controller.py:47-71 | the status is 422 iff the request fails validation |
| Api.KnownStrategyParses | 02-Componentes/Codigo/Scheduler/api_controller.py:14 | the names the schema admits are exactly those the scheduler dispatches on |
| Api.EndpointStatuses | 02-Componentes/Codigo/Scheduler/api_controller.py:47-71 | through the endpoint the response status is always 200, 201, 401 or 422: the 505 and 400 branches are unreachable |
| Api.EndpointOutcome | 02-Componentes/Codigo/Scheduler/api_controller.py:48-67 | a valid request gets 401 iff no candidate end date fits; a body carries 1 to 5 solutions, each with the requested end date iff the status is 200 |
| Api.RequiredLengthCoversWindows | 02-Componentes/Codigo/Scheduler/api_controller.py:36-42 | the required lengths are exactly the days from the earliest candidate window start through end + 3, and both ends are reached by some candidate window |
| WeekSpec.Range | Estandarizacion.py:13 | range(lo, hi) has hi - lo elements (none when hi <= lo), the i-th being lo + i |
| WeekSpec.ParseAll | Estandarizacion.py:15 | int() of every piece, in order |
| WeekSpec.ExpandRanges | Estandarizacion.py:10-21 | with digits read as ASCII digits, only the range branch can raise |
| WeekSpec.ExpandOther | Estandarizacion.py:14-21 | with digits read as ASCII digits, the list, dated, number and fallback branches never raise |
| WeekSpec.RangeCase | Estandarizacion.py:11-13 | "a-b" with digit runs a, b gives a..b inclusive, and nothing when a > b |
| WeekSpec.FailsExactly | Estandarizacion.py:11-12 | the parser raises iff the range guard holds but the text is not exactly one '-' between two digit runs |
| WeekSpec.ListCase | Estandarizacion.py:14-15 | two or more digit runs joined by ", " give those numbers in order |
| WeekSpec.DatedCase | Estandarizacion.py:16-17 | "n:" followed by anything gives [n] |
| WeekSpec.NumberCase | Estandarizacion.py:18-19 | a digit run gives the single number it denotes |
| WeekSpec.OtherInput | Estandarizacion.py:10-21 | text in none of the four forms (range, list, dated, number) gives no weeks; if it passes the range guard (dashes around digits) it raises instead |
| WeekSpec.CommaWithoutSpace | Estandarizacion.py:14-21 | "1,3" gives no weeks |
| WeekSpec.EmptyCell | Estandarizacion.py:18-21 | the empty cell gives no weeks |
| WeekSpec.MissingLowerBound | Estandarizacion.py:11-12 | "-3" raises |
| WeekSpec.TwoDashes | Estandarizacion.py:11-12 | "1-2-3" raises |
| Text.ParseNatAppend | Estandarizacion.py:13 | int() of a digit string followed by one more digit is ten times the string's value plus that digit |
| Text.JoinSplit | Estandarizacion.py:12 | joining the pieces of a split with the same separator gives the text back |
| Text.SplitJoin | 01-Analisis/Codigo/Final/Recolector_de_Web.py:32-37 | splitting a join recovers the pieces when no piece contains the separator's first character |
| Text.RemoveChar | 01-Analisis/Codigo/Final/Recolector_de_Web.py:30 | replace(c, "") leaves no c and removes exactly the occurrences of c |
| LineCleaner.KeepLines | 01-Analisis/Codigo/Final/Recolector_de_Web.py:34-35 | every kept line is neither empty nor " " and comes from the input |
| LineCleaner.KeepLinesCounts | 01-Analisis/Codigo/Final/Recolector_de_Web.py:34-35 | each kept line occurs as often as in the input, and no other line occurs |
| LineCleaner.KeepLinesConcat | 01-Analisis/Codigo/Final/Recolector_de_Web.py:34-35 | filtering distributes over concatenation, so kept lines keep their relative order |
| LineCleaner.FormatText | 01-Analisis/Codigo/Final/Recolector_de_Web.py:29-41 | the result has no tab, and unless it is empty none of its lines is empty or " " |
| LineCleaner.ResultLines | 01-Analisis/Codigo/Final/Recolector_de_Web.py:30-37 | the result's lines are exactly the kept lines of the tab-stripped input, in order, and the result is empty iff no line is kept |
| LineCleaner.Idempotent | 01-Analisis/Codigo/Final/Recolector_de_Web.py:29-41 | cleaning twice equals cleaning once |

## Left out

- The constraint solver's internals (search branching, decision strategy and the order in which solutions are discovered). `Allocation.Assignments` lists every solution in its own depth-first order. When a window has more than 5 solutions, which 5 the real solver returns is not modelled, only how many and that each is sound.
- Scheduler.Attempt: the `Completa` strategy uses the same smallest-first order as `Calmada`, because the source sets no decision strategy for it and the solver's default order is not modelled.
- The scheduler returning a bare `505` where the endpoint unpacks a pair. The model uses a sum type instead of reproducing the unpacking error. The branch cannot be reached through the endpoint anyway (`Api.EndpointStatuses`).
- Validation error messages: the pydantic error list and the formatted "Call expected N days …" text. `Api.ValidationError` carries the expected and given lengths instead. The 422 status is the framework's default for validation failures and is not written in the source.
- Date parsing and calendar arithmetic. Dates are integer day numbers.
- JSON encoding, `JSONResponse`/`HTTPException` plumbing, and the FastAPI application object.
- Text.IsDigits: only ASCII digits count. Python's `str.isdigit` also accepts other Unicode digits. Some of them, such as superscripts, make `int()` raise. Others, such as Arabic-Indic digits, are decimal digits that `int()` reads.
- WeekSpec.ExpandRanges: because of `Text.IsDigits`, it diverges from the source on non-ASCII digits in two ways. A cell such as "²" makes the source raise in `int()`, and the model returns no weeks. A cell such as "٣" or "١-٣" gives [3] or [1, 2, 3] in the source, and the model returns no weeks.
- WeekSpec.ExpandOther: "never raises" holds for ASCII digits only. The source's number, list and dated branches raise on superscript digits and read Arabic-Indic digits, and the model treats both as non-digits.
- WeekSpec.FailsExactly: the raising condition is stated for ASCII digits only. In the source a range of superscript digits also raises, and a range of Arabic-Indic digits does not.
- `format_text` with a pattern (`buscar_patron`, a regular-expression search). The scraping `__main__` and its network and CSV I/O are also left out.
- The `__main__` blocks and the pandas/PDF scripts of the data preparation.
- The collector's `max_solutions` parameter, which the source only ever sets to 5. The model fixes it at `Allocation.MaxSolutions`.

=== FILE: allocation.dfy ===
/**
 * The constraint system solved for one candidate end date, and the collector
 * that records its solutions.
 *
 * One integer variable per available day ranges over 0..min(free time,
 * capacity), and the variables must add up to the estimated hours. The
 * constraint solver is replaced by Assignments, which lists every solution of
 * that system (each exactly once); Collect then plays the solution callback
 * over that list: it keeps the days given positive hours, records the
 * solution when those hours add up to the estimate and at least one day is
 * used, and stops once five solutions are recorded.
 */
module Allocation {
  import opened Wrappers
  import opened Calendar

  /** Solutions recorded per candidate end date before the search is stopped. */
  const MaxSolutions := 5

  /** Upper bound of a day's variable: its free time, capped by the capacity of its type. */
  function Limit(day: AvailableDay): int {
    Min(day.timeAvailable, Capacity(day.dayType))
  }

  function Limits(days: seq<AvailableDay>): (bounds: seq<int>)
    ensures |bounds| == |days|
    ensures forall i :: 0 <= i < |days| ==> bounds[i] == Limit(days[i])
  {
    if days == [] then [] else [Limit(days[0])] + Limits(days[1..])
  }

  function Sum(xs: seq<int>): int {
    if xs == [] then 0 else xs[0] + Sum(xs[1..])
  }

  /** x solves the system: one value per day, each within 0..its bound, adding up to target. */
  predicate Feasible(x: seq<int>, bounds: seq<int>, target: int) {
    && |x| == |bounds|
    && (forall i :: 0 <= i < |x| ==> 0 <= x[i] <= bounds[i])
    && Sum(x) == target
  }

  /** The values tried for one variable: bound down to 0 (largest first) or 0 up to bound. */
  function Values(bound: int, descending: bool): (vs: seq<int>)
    ensures forall v :: v in vs <==> 0 <= v <= bound
    ensures Distinct(vs)
  {
    if descending then Down(bound) else Up(0, bound)
  }

  function Up(lo: int, hi: int): (vs: seq<int>)
    ensures forall v :: v in vs <==> lo <= v <= hi
    ensures forall i, j :: 0 <= i < j < |vs| ==> vs[i] < vs[j]
    decreases hi - lo
  {
    if lo > hi then []
    else
      var rest := Up(lo + 1, hi);
      assert forall i :: 0 <= i < |rest| ==> rest[i] in rest;
      [lo] + rest
  }

  function Down(hi: int): (vs: seq<int>)
    ensures forall v :: v in vs <==> 0 <= v <= hi
    ensures forall i, j :: 0 <= i < j < |vs| ==> vs[i] > vs[j]
    decreases hi + 1
  {
    if hi < 0 then []
    else
      var rest := Down(hi - 1);
      assert forall i :: 0 <= i < |rest| ==> rest[i] in rest;
      [hi] + rest
  }

  function Prepend(v: int, xss: seq<seq<int>>): (r: seq<seq<int>>)
    ensures |r| == |xss|
    ensures forall i :: 0 <= i < |xss| ==> r[i] == [v] + xss[i]
  {
    if xss == [] then [] else [[v] + xss[0]] + Prepend(v, xss[1..])
  }

  /**
   * Every solution of the system, enumerated depth first: the first variable
   * takes each of its values in turn and the remaining variables are solved
   * for what is left of the target.
   */
  function Assignments(bounds: seq<int>, target: int, descending: bool): seq<seq<int>>
    decreases |bounds|, 1, 0
  {
    if bounds == [] then (if target == 0 then [[]] else [])
    else Branch(bounds, target, Values(bounds[0], descending), descending)
  }

  /** The solutions whose first value is one of vs, in the order of vs. */
  function Branch(bounds: seq<int>, target: int, vs: seq<int>, descending: bool): seq<seq<int>>
    requires |bounds| > 0
    decreases |bounds|, 0, |vs|
  {
    if vs == [] then []
    else
      Prepend(vs[0], Assignments(bounds[1..], target - vs[0], descending))
      + Branch(bounds, target, vs[1..], descending)
  }

  lemma FeasibleCons(x: seq<int>, bounds: seq<int>, target: int)
    requires |bounds| > 0
    ensures Feasible(x, bounds, target) <==>
      |x| > 0 && 0 <= x[0] <= bounds[0] && Feasible(x[1..], bounds[1..], target - x[0])
  {
    if |x| > 0 && |x| == |bounds| {
      assert forall i :: 1 <= i < |x| ==> x[1..][i - 1] == x[i] && bounds[1..][i - 1] == bounds[i];
    }
  }

  /** The enumeration lists exactly the solutions of the system. */
  lemma {:induction false} AssignmentsExact(bounds: seq<int>, target: int, descending: bool, x: seq<int>)
    ensures x in Assignments(bounds, target, descending) <==> Feasible(x, bounds, target)
    decreases |bounds|, 1
  {
    if bounds != [] {
      BranchExact(bounds, target, Values(bounds[0], descending), descending, x);
      FeasibleCons(x, bounds, target);
    }
  }

  lemma {:induction false} BranchExact(bounds: seq<int>, target: int, vs: seq<int>, descending: bool, x: seq<int>)
    requires |bounds| > 0
    ensures x in Branch(bounds, target, vs, descending) <==>
      |x| > 0 && x[0] in vs && Feasible(x[1..], bounds[1..], target - x[0])
    decreases |bounds|, 0, |vs|
  {
    if vs != [] {
      BranchExact(bounds, target, vs[1..], descending, x);
      var tail := Assignments(bounds[1..], target - vs[0], descending);
      var head := Prepend(vs[0], tail);
      var rest := Branch(bounds, target, vs[1..], descending);
      assert Branch(bounds, target, vs, descending) == head + rest;
      assert x in head + rest <==> x in head || x in rest;
      assert vs == [vs[0]] + vs[1..];
      if |x| > 0 && x[0] == vs[0] {
        AssignmentsExact(bounds[1..], target - vs[0], descending, x[1..]);
        if x[1..] in tail {
          var i :| 0 <= i < |tail| && tail[i] == x[1..];
          assert head[i] == x;
        }
      }
      if x in head {
        var i :| 0 <= i < |tail| && head[i] == x;
        assert x[1..] == tail[i];
        AssignmentsExact(bounds[1..], target - vs[0], descending, x[1..]);
      }
    }
  }

  /** No solution is listed twice. */
  lemma {:induction false} AssignmentsDistinct(bounds: seq<int>, target: int, descending: bool)
    ensures Distinct(Assignments(bounds, target, descending))
    decreases |bounds|, 1
  {
    if bounds != [] {
      BranchDistinct(bounds, target, Values(bounds[0], descending), descending);
      assert Assignments(bounds, target, descending) == Branch(bounds, target, Values(bounds[0], descending), descending);
    }
  }

  lemma {:induction false} BranchDistinct(bounds: seq<int>, target: int, vs: seq<int>, descending: bool)
    requires |bounds| > 0
    requires Distinct(vs)
    ensures Distinct(Branch(bounds, target, vs, descending))
    decreases |bounds|, 0, |vs|
  {
    if vs != [] {
      var tail := Assignments(bounds[1..], target - vs[0], descending);
      var head := Prepend(vs[0], tail);
      var rest := Branch(bounds, target, vs[1..], descending);
      assert Distinct(vs[1..]) by {
        forall i, j | 0 <= i < j < |vs[1..]|
          ensures vs[1..][i] != vs[1..][j]
        {
          assert vs[1..][i] == vs[i + 1] && vs[1..][j] == vs[j + 1];
        }
      }
      AssignmentsDistinct(bounds[1..], target - vs[0], descending);
      BranchDistinct(bounds, target, vs[1..], descending);
      PrependDistinct(vs[0], tail);
      forall y | y in head
        ensures y !in rest
      {
        var i :| 0 <= i < |head| && head[i] == y;
        assert y[0] == vs[0];
        assert vs[0] !in vs[1..] by {
          forall k | 0 <= k < |vs[1..]|
            ensures vs[1..][k] != vs[0]
          {
            assert vs[1..][k] == vs[k + 1];
          }
        }
        BranchExact(bounds, target, vs[1..], descending, y);
      }
      DistinctConcat(head, rest);
    }
  }

  /** Prefixing the same value keeps distinct sequences distinct. */
  lemma PrependDistinct(v: int, xss: seq<seq<int>>)
    requires Distinct(xss)
    ensures Distinct(Prepend(v, xss))
  {
    var ys := Prepend(v, xss);
    forall i, j | 0 <= i < j < |ys|
      ensures ys[i] != ys[j]
    {
      assert ys[i][1..] == xss[i] && ys[j][1..] == xss[j];
    }
  }

  /** One recorded day of a solution. */
  datatype Entry = Entry(calendarDate: int, dayType: string, assignedHours: int)

  type Solution = seq<Entry>

  function Hours(s: Solution): int {
    if s == [] then 0 else s[0].assignedHours + Hours(s[1..])
  }

  /** The entries the callback records for one assignment: the days given positive hours, in day order. */
  function Entries(x: seq<int>, days: seq<AvailableDay>): (s: Solution)
    requires |x| == |days|
    ensures forall k :: 0 <= k < |s| ==> s[k].assignedHours > 0
  {
    if x == [] then []
    else
      var rest := Entries(x[1..], days[1..]);
      if x[0] > 0 then
        var s := [Entry(days[0].calendarDate, days[0].dayType, x[0])] + rest;
        assert forall k :: 1 <= k < |s| ==> s[k] == rest[k - 1];
        s
      else rest
  }

  /** Every recorded entry is the date, type and value of one of the days. */
  lemma {:induction false} EntriesFrom(x: seq<int>, days: seq<AvailableDay>)
    requires |x| == |days|
    ensures forall k :: 0 <= k < |Entries(x, days)| ==>
      exists i :: 0 <= i < |x| && Entries(x, days)[k] == Entry(days[i].calendarDate, days[i].dayType, x[i])
    decreases |x|
  {
    if x != [] {
      var s := Entries(x, days);
      var rest := Entries(x[1..], days[1..]);
      EntriesFrom(x[1..], days[1..]);
      forall k | 0 <= k < |s|
        ensures exists i :: 0 <= i < |x| && s[k] == Entry(days[i].calendarDate, days[i].dayType, x[i])
      {
        if x[0] > 0 && k == 0 {
          assert s[0] == Entry(days[0].calendarDate, days[0].dayType, x[0]);
        } else {
          var r := if x[0] > 0 then k - 1 else k;
          assert s[k] == rest[r];
          var i :| 0 <= i < |x[1..]| && rest[r] == Entry(days[1..][i].calendarDate, days[1..][i].dayType, x[1..][i]);
          assert x[1..][i] == x[i + 1] && days[1..][i] == days[i + 1];
        }
      }
    } else {
      assert Entries(x, days) == [];
    }
  }

  /**
   * For a non-negative assignment the recorded hours total its sum; nothing is
   * recorded exactly when no day gets positive hours.
   */
  lemma {:induction false} EntriesHours(x: seq<int>, days: seq<AvailableDay>)
    requires |x| == |days|
    ensures (forall i :: 0 <= i < |x| ==> x[i] >= 0) ==> Hours(Entries(x, days)) == Sum(x)
    ensures Entries(x, days) == [] <==> forall i :: 0 <= i < |x| ==> x[i] <= 0
    decreases |x|
  {
    if x != [] {
      EntriesHours(x[1..], days[1..]);
      assert forall i :: 1 <= i < |x| ==> x[1..][i - 1] == x[i];
      if x[0] > 0 {
        var s := Entries(x, days);
        assert s[1..] == Entries(x[1..], days[1..]);
      }
    }
  }

  /**
   * The entries are recorded day by day: a single day gives its entry when its
   * value is positive and nothing otherwise, and the entries of two
   * consecutive stretches of days follow each other in day order.
   */
  lemma {:induction false} EntriesConcat(x1: seq<int>, d1: seq<AvailableDay>, x2: seq<int>, d2: seq<AvailableDay>)
    requires |x1| == |d1| && |x2| == |d2|
    ensures Entries(x1 + x2, d1 + d2) == Entries(x1, d1) + Entries(x2, d2)
    ensures |x1| == 1 ==> Entries(x1, d1) == EntryOf(x1[0], d1[0])
    decreases |x1|
  {
    if x1 == [] {
      assert x1 + x2 == x2 && d1 + d2 == d2;
    } else {
      var x, d := x1 + x2, d1 + d2;
      var head := EntryOf(x1[0], d1[0]);
      EntriesConcat(x1[1..], d1[1..], x2, d2);
      assert x[1..] == x1[1..] + x2 && d[1..] == d1[1..] + d2;
      assert x[0] == x1[0] && d[0] == d1[0];
      EntriesUnfold(x, d);
      EntriesUnfold(x1, d1);
      calc {
        Entries(x, d);
        head + Entries(x1[1..] + x2, d1[1..] + d2);
        head + (Entries(x1[1..], d1[1..]) + Entries(x2, d2));
        { SeqAssoc(head, Entries(x1[1..], d1[1..]), Entries(x2, d2)); }
        (head + Entries(x1[1..], d1[1..])) + Entries(x2, d2);
        Entries(x1, d1) + Entries(x2, d2);
      }
      if |x1| == 1 {
        assert x1[1..] == [] && d1[1..] == [];
        assert head + [] == head;
      }
    }
  }

  lemma EntriesUnfold(x: seq<int>, days: seq<AvailableDay>)
    requires |x| == |days| && |x| > 0
    ensures Entries(x, days) == EntryOf(x[0], days[0]) + Entries(x[1..], days[1..])
  {
  }

  /** The entry a single day contributes: one when its value is positive, none otherwise. */
  function EntryOf(v: int, day: AvailableDay): Solution {
    if v > 0 then [Entry(day.calendarDate, day.dayType, v)] else []
  }

  /** The dates of a solution's entries, in order. */
  function EntryDates(s: Solution): seq<int> {
    seq(|s|, k requires 0 <= k < |s| => s[k].calendarDate)
  }

  /** Days with distinct dates give a solution with distinct dates. */
  lemma {:induction false} EntriesUniqueDates(x: seq<int>, days: seq<AvailableDay>)
    requires |x| == |days| && Distinct(OfferedDates(days))
    ensures Distinct(EntryDates(Entries(x, days)))
    decreases |x|
  {
    if x != [] {
      var tail := days[1..];
      assert Distinct(OfferedDates(tail)) by {
        forall i, j | 0 <= i < j < |tail|
          ensures OfferedDates(tail)[i] != OfferedDates(tail)[j]
        {
          assert OfferedDates(tail)[i] == OfferedDates(days)[i + 1];
          assert OfferedDates(tail)[j] == OfferedDates(days)[j + 1];
        }
      }
      EntriesUniqueDates(x[1..], tail);
      EntriesFrom(x[1..], tail);
      var rest := Entries(x[1..], tail);
      if x[0] > 0 {
        var s := Entries(x, days);
        assert s == [Entry(days[0].calendarDate, days[0].dayType, x[0])] + rest;
        forall i, j | 0 <= i < j < |s|
          ensures EntryDates(s)[i] != EntryDates(s)[j]
        {
          assert s[j] == rest[j - 1];
          if i == 0 {
            var q :| 0 <= q < |x[1..]| && rest[j - 1] == Entry(tail[q].calendarDate, tail[q].dayType, x[1..][q]);
            assert tail[q] == days[q + 1];
            assert OfferedDates(days)[0] != OfferedDates(days)[q + 1];
          } else {
            assert s[i] == rest[i - 1];
            assert EntryDates(rest)[i - 1] != EntryDates(rest)[j - 1];
          }
        }
      }
    }
  }

  /** The callback's test: the positive hours add up to the target and some day is used. */
  predicate Accepted(x: seq<int>, days: seq<AvailableDay>, target: int)
    requires |x| == |days|
  {
    var s := Entries(x, days);
    Hours(s) == target && s != []
  }

  predicate Shaped(stream: seq<seq<int>>, days: seq<AvailableDay>) {
    forall k :: 0 <= k < |stream| ==> |stream[k]| == |days|
  }

  function CountAccepted(stream: seq<seq<int>>, days: seq<AvailableDay>, target: int): nat
    requires Shaped(stream, days)
  {
    if stream == [] then 0
    else (if Accepted(stream[0], days, target) then 1 else 0) + CountAccepted(stream[1..], days, target)
  }

  /**
   * The solution callback run over the solver's stream of solutions, with
   * `quota` recordings left before the search is stopped.
   */
  function Collect(stream: seq<seq<int>>, days: seq<AvailableDay>, target: int, quota: nat)
    : (sols: seq<Solution>)
    requires Shaped(stream, days)
    ensures |sols| == Min(quota, CountAccepted(stream, days, target))
    ensures forall s :: s in sols ==>
      exists x :: x in stream && |x| == |days| && Accepted(x, days, target) && s == Entries(x, days)
  {
    if stream == [] || quota == 0 then []
    else
      var rest := Collect(stream[1..], days, target, if Accepted(stream[0], days, target) then quota - 1 else quota);
      assert forall x :: x in stream[1..] ==> x in stream;
      if Accepted(stream[0], days, target) then [Entries(stream[0], days)] + rest else rest
  }

  /** Every recorded solution uses some day, gives each of its days positive hours, and adds up to the target. */
  lemma CollectSound(stream: seq<seq<int>>, days: seq<AvailableDay>, target: int, quota: nat)
    requires Shaped(stream, days)
    ensures forall s: Solution :: s in Collect(stream, days, target, quota) ==>
      s != [] && Hours(s) == target && forall k :: 0 <= k < |s| ==> s[k].assignedHours > 0
  {
  }

  /** An accepted assignment anywhere in the stream makes the count positive. */
  lemma {:induction false} CountAcceptedPositive(stream: seq<seq<int>>, days: seq<AvailableDay>, target: int, x: seq<int>)
    requires Shaped(stream, days)
    requires x in stream && |x| == |days| && Accepted(x, days, target)
    ensures CountAccepted(stream, days, target) >= 1
    decreases |stream|
  {
    if stream[0] != x {
      assert x in stream[1..];
      CountAcceptedPositive(stream[1..], days, target, x);
    }
  }

  /** When every element of the stream is accepted, the count is the stream's length. */
  lemma {:induction false} CountAllAccepted(stream: seq<seq<int>>, days: seq<AvailableDay>, target: int)
    requires Shaped(stream, days)
    requires forall k :: 0 <= k < |stream| ==> Accepted(stream[k], days, target)
    ensures CountAccepted(stream, days, target) == |stream|
    decreases |stream|
  {
    if stream != [] {
      assert forall k :: 1 <= k < |stream| ==> stream[1..][k - 1] == stream[k];
      CountAllAccepted(stream[1..], days, target);
    }
  }

  /** What the callback records for one assignment: its entries when accepted, nothing otherwise. */
  function Recorded(x: seq<int>, days: seq<AvailableDay>, target: int): seq<Solution>
    requires |x| == |days|
  {
    if Accepted(x, days, target) then [Entries(x, days)] else []
  }

  lemma CollectUnfold(stream: seq<seq<int>>, days: seq<AvailableDay>, target: int, quota: nat)
    requires Shaped(stream, days) && stream != [] && quota > 0
    ensures Shaped(stream[1..], days)
    ensures Collect(stream, days, target, quota)
      == Recorded(stream[0], days, target)
         + Collect(stream[1..], days, target, quota - |Recorded(stream[0], days, target)|)
  {
    assert forall k :: 1 <= k < |stream| ==> stream[1..][k - 1] == stream[k];
  }

  /**
   * The callback records the stream in stream order: a stream split in two
   * records the first part's solutions followed by the second part's, under
   * the quota the first part left over.
   */
  lemma {:induction false} CollectConcat(s1: seq<seq<int>>, s2: seq<seq<int>>, days: seq<AvailableDay>, target: int, quota: nat)
    requires Shaped(s1, days) && Shaped(s2, days)
    ensures Shaped(s1 + s2, days)
    ensures Collect(s1 + s2, days, target, quota)
      == Collect(s1, days, target, quota) + Collect(s2, days, target, quota - |Collect(s1, days, target, quota)|)
    decreases |s1|
  {
    ShapedConcat(s1, s2, days);
    if s1 == [] {
      assert s1 + s2 == s2;
    } else if quota > 0 {
      CollectConcatStep(s1, s2, days, target, quota);
    }
  }

  /** A single assignment is recorded once when quota remains and it is accepted, and not at all otherwise. */
  lemma CollectSingle(x: seq<int>, days: seq<AvailableDay>, target: int, quota: nat)
    requires |x| == |days|
    ensures Shaped([x], days)
    ensures Collect([x], days, target, quota)
      == if quota > 0 && Accepted(x, days, target) then [Entries(x, days)] else []
  {
    if quota > 0 {
      CollectUnfold([x], days, target, quota);
      assert [x][1..] == [];
    }
  }

  lemma ShapedConcat(s1: seq<seq<int>>, s2: seq<seq<int>>, days: seq<AvailableDay>)
    requires Shaped(s1, days) && Shaped(s2, days)
    ensures Shaped(s1 + s2, days)
  {
    var s := s1 + s2;
    forall k | 0 <= k < |s|
      ensures |s[k]| == |days|
    {
      if k >= |s1| {
        assert s[k] == s2[k - |s1|];
      }
    }
  }

  lemma {:induction false} CollectConcatStep(s1: seq<seq<int>>, s2: seq<seq<int>>, days: seq<AvailableDay>, target: int, quota: nat)
    requires Shaped(s1, days) && Shaped(s2, days) && s1 != [] && quota > 0
    ensures Shaped(s1 + s2, days)
    ensures Collect(s1 + s2, days, target, quota)
      == Collect(s1, days, target, quota) + Collect(s2, days, target, quota - |Collect(s1, days, target, quota)|)
    decreases |s1|, 0
  {
    ShapedConcat(s1, s2, days);
    ShapedConcat(s1[1..], s2, days);
    var head := Recorded(s1[0], days, target);
    var q := quota - |head|;
    CollectConcatHead(s1, s2, days, target, quota);
    CollectUnfold(s1, days, target, quota);
    CollectConcat(s1[1..], s2, days, target, q);
    var c1 := Collect(s1[1..], days, target, q);
    SeqAssoc(head, c1, Collect(s2, days, target, q - |c1|));
  }

  /** A stream that starts with s1's first assignment records it first, then continues with the rest of s1 followed by s2. */
  lemma CollectConcatHead(s1: seq<seq<int>>, s2: seq<seq<int>>, days: seq<AvailableDay>, target: int, quota: nat)
    requires Shaped(s1, days) && Shaped(s2, days) && s1 != [] && quota > 0
    ensures Shaped(s1 + s2, days) && Shaped(s1[1..] + s2, days)
    ensures Collect(s1 + s2, days, target, quota)
      == Recorded(s1[0], days, target)
         + Collect(s1[1..] + s2, days, target, quota - |Recorded(s1[0], days, target)|)
  {
    ShapedConcat(s1, s2, days);
    CollectUnfold(s1 + s2, days, target, quota);
    assert (s1 + s2)[0] == s1[0] && (s1 + s2)[1..] == s1[1..] + s2;
  }

  /** The solutions recorded for one candidate window, in the order the search finds them. */
  function Solve(days: seq<AvailableDay>, target: int, descending: bool): seq<Solution> {
    var stream := Assignments(Limits(days), target, descending);
    ShapedAssignments(days, target, descending);
    Collect(stream, days, target, MaxSolutions)
  }

  lemma ShapedAssignments(days: seq<AvailableDay>, target: int, descending: bool)
    ensures Shaped(Assignments(Limits(days), target, descending), days)
  {
    var stream := Assignments(Limits(days), target, descending);
    forall k | 0 <= k < |stream|
      ensures |stream[k]| == |days|
    {
      AssignmentsExact(Limits(days), target, descending, stream[k]);
    }
  }

  lemma {:induction false} SumWithin(x: seq<int>, bounds: seq<int>)
    requires |x| == |bounds|
    requires forall i :: 0 <= i < |x| ==> 0 <= x[i] <= bounds[i]
    ensures 0 <= Sum(x) <= Sum(bounds)
    decreases |x|
  {
    if x != [] {
      assert forall i :: 1 <= i < |x| ==> x[1..][i - 1] == x[i] && bounds[1..][i - 1] == bounds[i];
      SumWithin(x[1..], bounds[1..]);
    }
  }

  /** Any target between 0 and the sum of non-negative bounds has a solution: fill days greedily. */
  lemma {:induction false} GreedyWitness(bounds: seq<int>, target: int) returns (x: seq<int>)
    requires forall i :: 0 <= i < |bounds| ==> bounds[i] >= 0
    requires 0 <= target <= Sum(bounds)
    ensures Feasible(x, bounds, target)
    decreases |bounds|
  {
    if bounds == [] {
      x := [];
    } else {
      var v := Min(bounds[0], target);
      assert forall i :: 1 <= i < |bounds| ==> bounds[1..][i - 1] == bounds[i];
      SumWithin(bounds[1..], bounds[1..]);
      var rest := GreedyWitness(bounds[1..], target - v);
      x := [v] + rest;
      assert x[1..] == rest;
      FeasibleCons(x, bounds, target);
    }
  }

  /** The system has a solution exactly when the target lies between 0 and the sum of the bounds. */
  lemma FeasibleIffWithinBounds(bounds: seq<int>, target: int)
    requires forall i :: 0 <= i < |bounds| ==> bounds[i] >= 0
    ensures (exists x :: Feasible(x, bounds, target)) <==> 0 <= target <= Sum(bounds)
  {
    if exists x :: Feasible(x, bounds, target) {
      var x :| Feasible(x, bounds, target);
      SumWithin(x, bounds);
    }
    if 0 <= target <= Sum(bounds) {
      var x := GreedyWitness(bounds, target);
    }
  }

  lemma {:induction false} HoursPositive(s: Solution)
    requires s != [] && forall k :: 0 <= k < |s| ==> s[k].assignedHours > 0
    ensures Hours(s) > 0
    decreases |s|
  {
    if |s| > 1 {
      assert forall k :: 1 <= k < |s| ==> s[1..][k - 1] == s[k];
      HoursPositive(s[1..]);
    }
  }

  /** Free hours of a window: the sum of its days' variable bounds. */
  function FreeHours(days: seq<AvailableDay>): int {
    Sum(Limits(days))
  }

  /**
   * A window yields solutions exactly when the estimate is positive and fits in
   * its free hours; in particular an estimate of 0 never yields one.
   */
  lemma SolveSucceedsIff(days: seq<AvailableDay>, target: int, descending: bool)
    requires forall k :: 0 <= k < |days| ==> days[k].timeAvailable > 0
    ensures Solve(days, target, descending) != [] <==> 0 < target <= FreeHours(days)
  {
    var bounds := Limits(days);
    var stream := Assignments(bounds, target, descending);
    ShapedAssignments(days, target, descending);
    var sols := Collect(stream, days, target, MaxSolutions);
    CollectSound(stream, days, target, MaxSolutions);
    FeasibleIffWithinBounds(bounds, target);
    if sols != [] {
      assert sols[0] in sols;
      HoursPositive(sols[0]);
      var x :| x in stream && |x| == |days| && Accepted(x, days, target) && sols[0] == Entries(x, days);
      AssignmentsExact(bounds, target, descending, x);
    }
    if 0 < target <= FreeHours(days) {
      var x := GreedyWitness(bounds, target);
      AssignmentsExact(bounds, target, descending, x);
      EntriesHours(x, days);
      assert Entries(x, days) != [] by {
        if Entries(x, days) == [] {
          NonPositiveSum(x);
        }
      }
      CountAcceptedPositive(stream, days, target, x);
    }
  }

  lemma {:induction false} NonPositiveSum(x: seq<int>)
    requires forall i :: 0 <= i < |x| ==> x[i] <= 0
    ensures Sum(x) <= 0
    decreases |x|
  {
    if x != [] {
      assert forall i :: 1 <= i < |x| ==> x[1..][i - 1] == x[i];
      NonPositiveSum(x[1..]);
    }
  }

  /**
   * With a positive estimate every solution of the system is recorded until
   * the cap: min(5, number of solutions) are returned.
   */
  lemma SolveCount(days: seq<AvailableDay>, target: int, descending: bool)
    requires target > 0
    ensures |Solve(days, target, descending)| == Min(MaxSolutions, |Assignments(Limits(days), target, descending)|)
  {
    var bounds := Limits(days);
    var stream := Assignments(bounds, target, descending);
    ShapedAssignments(days, target, descending);
    forall k | 0 <= k < |stream|
      ensures Accepted(stream[k], days, target)
    {
      AssignmentsExact(bounds, target, descending, stream[k]);
      var x := stream[k];
      EntriesHours(x, days);
      if Entries(x, days) == [] {
        NonPositiveSum(x);
      }
    }
    CountAllAccepted(stream, days, target);
  }

  /** Over days with distinct dates, no recorded solution books a date twice. */
  lemma SolveUniqueDates(days: seq<AvailableDay>, target: int, descending: bool)
    requires Distinct(OfferedDates(days))
    ensures forall s: Solution :: s in Solve(days, target, descending) ==> Distinct(EntryDates(s))
  {
    var stream := Assignments(Limits(days), target, descending);
    ShapedAssignments(days, target, descending);
    forall s | s in Solve(days, target, descending)
      ensures Distinct(EntryDates(s))
    {
      var x :| x in stream && |x| == |days| && Accepted(x, days, target) && s == Entries(x, days);
      EntriesUniqueDates(x, days);
    }
  }

  /** Over days with distinct dates, the entries of a non-negative assignment determine it. */
  lemma {:induction false} EntriesInjective(x: seq<int>, y: seq<int>, days: seq<AvailableDay>)
    requires |x| == |days| && |y| == |days| && Distinct(OfferedDates(days))
    requires forall i :: 0 <= i < |x| ==> x[i] >= 0 && y[i] >= 0
    requires Entries(x, days) == Entries(y, days)
    ensures x == y
    decreases |x|
  {
    if x != [] && x[0] > 0 && y[0] == 0 {
      EntriesHeadDiffers(x, y, days);
      assert false;
    } else if x != [] && y[0] > 0 && x[0] == 0 {
      EntriesHeadDiffers(y, x, days);
      assert false;
    } else if x != [] {
      var tail := days[1..];
      OfferedDatesTail(days);
      EntriesUnfold(x, days);
      EntriesUnfold(y, days);
      var ex, ey := Entries(x[1..], tail), Entries(y[1..], tail);
      if x[0] > 0 {
        assert Entries(x, days)[0] == Entry(days[0].calendarDate, days[0].dayType, x[0]);
        assert Entries(y, days)[0] == Entry(days[0].calendarDate, days[0].dayType, y[0]);
        assert ex == Entries(x, days)[1..] == Entries(y, days)[1..] == ey;
      } else {
        assert ex == ey;
      }
      EntriesInjective(x[1..], y[1..], tail);
      assert x == [x[0]] + x[1..] && y == [y[0]] + y[1..];
    }
  }

  /** An assignment that uses the first day and one that skips it give different entries. */
  lemma EntriesHeadDiffers(x: seq<int>, y: seq<int>, days: seq<AvailableDay>)
    requires |x| == |days| && |y| == |days| && Distinct(OfferedDates(days))
    requires x != [] && x[0] > 0 && y[0] == 0
    ensures Entries(x, days) != Entries(y, days)
  {
    EntriesUnfold(x, days);
    EntriesUnfold(y, days);
    EntriesAvoidHead(y, days);
    var ey := Entries(y[1..], days[1..]);
    assert Entries(y, days) == ey;
    assert Entries(x, days)[0].calendarDate == days[0].calendarDate;
    assert ey == [] || ey[0].calendarDate != days[0].calendarDate;
  }

  lemma OfferedDatesTail(days: seq<AvailableDay>)
    requires days != [] && Distinct(OfferedDates(days))
    ensures Distinct(OfferedDates(days[1..]))
    ensures forall k :: 1 <= k < |days| ==> days[k].calendarDate != days[0].calendarDate
  {
    var tail := days[1..];
    forall i, j | 0 <= i < j < |tail|
      ensures OfferedDates(tail)[i] != OfferedDates(tail)[j]
    {
      assert OfferedDates(tail)[i] == OfferedDates(days)[i + 1];
      assert OfferedDates(tail)[j] == OfferedDates(days)[j + 1];
    }
    forall k | 1 <= k < |days|
      ensures days[k].calendarDate != days[0].calendarDate
    {
      assert OfferedDates(days)[0] != OfferedDates(days)[k];
    }
  }

  /** The entries recorded for the later days never carry the first day's date. */
  lemma EntriesAvoidHead(z: seq<int>, days: seq<AvailableDay>)
    requires |z| == |days| && days != [] && Distinct(OfferedDates(days))
    ensures forall k :: 0 <= k < |Entries(z[1..], days[1..])| ==>
      Entries(z[1..], days[1..])[k].calendarDate != days[0].calendarDate
  {
    OfferedDatesTail(days);
    EntriesFrom(z[1..], days[1..]);
    forall k | 0 <= k < |Entries(z[1..], days[1..])|
      ensures Entries(z[1..], days[1..])[k].calendarDate != days[0].calendarDate
    {
      var i :| 0 <= i < |z[1..]| && Entries(z[1..], days[1..])[k] == Entry(days[1..][i].calendarDate, days[1..][i].dayType, z[1..][i]);
      assert days[1..][i] == days[i + 1];
    }
  }

  /** A stream without repeats, over days with distinct dates, never records the same solution twice. */
  lemma {:induction false} CollectDistinct(stream: seq<seq<int>>, days: seq<AvailableDay>, target: int, quota: nat)
    requires Shaped(stream, days) && Distinct(stream) && Distinct(OfferedDates(days))
    requires forall k, i :: 0 <= k < |stream| && 0 <= i < |stream[k]| ==> stream[k][i] >= 0
    ensures Distinct(Collect(stream, days, target, quota))
    decreases |stream|
  {
    if stream != [] && quota > 0 {
      var tail := stream[1..];
      CollectUnfold(stream, days, target, quota);
      var head := Recorded(stream[0], days, target);
      var q := quota - |head|;
      DistinctTail(stream);
      CollectDistinct(tail, days, target, q);
      CollectMissesHead(stream, days, target, q);
      DistinctConcat(head, Collect(tail, days, target, q));
    }
  }

  lemma DistinctTail(stream: seq<seq<int>>)
    requires stream != [] && Distinct(stream)
    requires forall k, i :: 0 <= k < |stream| && 0 <= i < |stream[k]| ==> stream[k][i] >= 0
    ensures Distinct(stream[1..]) && stream[0] !in stream[1..]
    ensures forall k, i :: 0 <= k < |stream[1..]| && 0 <= i < |stream[1..][k]| ==> stream[1..][k][i] >= 0
  {
    var tail := stream[1..];
    forall i, j | 0 <= i < j < |tail|
      ensures tail[i] != tail[j]
    {
      assert tail[i] == stream[i + 1] && tail[j] == stream[j + 1];
    }
    forall k | 0 <= k < |tail|
      ensures tail[k] != stream[0] && tail[k] == stream[k + 1]
    {
      assert stream[0] != stream[k + 1];
    }
  }

  /** The solution of the stream's first assignment is not recorded again from the rest of the stream. */
  lemma CollectMissesHead(stream: seq<seq<int>>, days: seq<AvailableDay>, target: int, quota: nat)
    requires Shaped(stream, days) && stream != [] && stream[0] !in stream[1..] && Distinct(OfferedDates(days))
    requires forall k, i :: 0 <= k < |stream| && 0 <= i < |stream[k]| ==> stream[k][i] >= 0
    ensures Shaped(stream[1..], days)
    ensures Entries(stream[0], days) !in Collect(stream[1..], days, target, quota)
  {
    var tail := stream[1..];
    assert forall k :: 0 <= k < |tail| ==> tail[k] == stream[k + 1];
    var x0 := stream[0];
    if Entries(x0, days) in Collect(tail, days, target, quota) {
      var y :| y in tail && |y| == |days| && Accepted(y, days, target) && Entries(x0, days) == Entries(y, days);
      var j :| 0 <= j < |tail| && tail[j] == y;
      assert forall i :: 0 <= i < |x0| ==> x0[i] >= 0 && y[i] >= 0;
      EntriesInjective(x0, y, days);
      assert false;
    }
  }

  /**
   * Over days with distinct dates the recorded solutions are all different.
   * A date offered twice is two variables, and the same solution can then be
   * recorded from two assignments.
   */
  lemma SolveDistinct(days: seq<AvailableDay>, target: int, descending: bool)
    requires Distinct(OfferedDates(days))
    ensures Distinct(Solve(days, target, descending))
  {
    var bounds := Limits(days);
    var stream := Assignments(bounds, target, descending);
    ShapedAssignments(days, target, descending);
    AssignmentsDistinct(bounds, target, descending);
    forall k, i | 0 <= k < |stream| && 0 <= i < |stream[k]|
      ensures stream[k][i] >= 0
    {
      AssignmentsExact(bounds, target, descending, stream[k]);
    }
    CollectDistinct(stream, days, target, MaxSolutions);
  }

  predicate FitsDay(e: Entry, day: AvailableDay) {
    day.calendarDate == e.calendarDate && day.dayType == e.dayType && e.assignedHours <= Limit(day)
  }

  /** A recorded day of one window: some available day, with positive hours within its bound. */
  predicate FitsWindow(e: Entry, days: seq<AvailableDay>) {
    && e.assignedHours > 0
    && exists i :: 0 <= i < |days| && FitsDay(e, days[i])
  }

  /** Every solution recorded for a window is non-empty, adds up to the target, and fits the window day by day. */
  lemma SolveSound(days: seq<AvailableDay>, target: int, descending: bool)
    ensures forall s: Solution :: s in Solve(days, target, descending) ==>
      s != [] && Hours(s) == target && forall k :: 0 <= k < |s| ==> FitsWindow(s[k], days)
  {
    var bounds := Limits(days);
    var stream := Assignments(bounds, target, descending);
    ShapedAssignments(days, target, descending);
    CollectSound(stream, days, target, MaxSolutions);
    forall s | s in Solve(days, target, descending)
      ensures forall k :: 0 <= k < |s| ==> FitsWindow(s[k], days)
    {
      var x :| x in stream && |x| == |days| && Accepted(x, days, target) && s == Entries(x, days);
      AssignmentsExact(bounds, target, descending, x);
      EntriesFrom(x, days);
      forall k | 0 <= k < |s|
        ensures FitsWindow(s[k], days)
      {
        var i :| 0 <= i < |x| && s[k] == Entry(days[i].calendarDate, days[i].dayType, x[i]);
        assert x[i] <= bounds[i];
        assert FitsDay(s[k], days[i]);
      }
    }
  }
}

=== FILE: api.dfy ===
/**
 * The scheduling endpoint: the request is validated (field domains, no
 * unknown activity fields, enough calendar days), handed to the scheduler,
 * and the scheduler's code is turned into an HTTP response.
 */
module Api {
  import opened Wrappers
  import opened Calendar
  import opened Scheduler

  /** The activity of a request as received; extraFields names any field beyond the four declared ones. */
  datatype RawActivity = RawActivity(
    estimatedHours: int,
    strategy: string,
    startOfActivity: Option<int>,
    endOfActivity: int,
    extraFields: seq<string>)

  datatype Request = Request(activity: RawActivity, calendar: seq<CalendarDay>)

  /** Why a request is rejected before reaching the scheduler. */
  datatype ValidationError =
    | InvalidField
    | CalendarLength(expected: int, given: int)

  datatype Response =
    | Body(status: int, result: int, message: string, solutions: seq<OutputSolution>)
    | HttpError(status: int, detail: string)
    | Unprocessable(error: ValidationError)

  /** Calendar entries expected when the activity has no start date. */
  const DefaultCalendarDays := 21

  const AssignedMessage := "Assigned activity to the scheduler successfully."
  const MovedMessage := "Assigned activity to the scheduler successfully. However, the endOfActivity given had to be changed in order to schedule it properly."
  const NotAssignedDetail := "Could not assign the activity to the scheduler successfully."
  const UnknownErrorDetail := "Unknown Error"
  const UnknownCodeDetail := "Unknown Code"

  /** The HTTP status of a response; a validation failure is answered with 422. */
  function StatusOf(resp: Response): int {
    match resp
    case Body(status, _, _, _) => status
    case HttpError(status, _) => status
    case Unprocessable(_) => 422
  }

  /** The strategy names the request schema admits. */
  predicate KnownStrategy(name: string) {
    name == "Agresiva" || name == "Calmada" || name == "Completa"
  }

  /** The activity's fields are in their domains and nothing else was sent. */
  predicate ValidActivity(a: RawActivity) {
    a.estimatedHours >= 0 && KnownStrategy(a.strategy) && a.extraFields == []
  }

  /** A calendar entry's fields are in their domains. */
  predicate ValidDay(day: CalendarDay) {
    (day.dayType == "Festivo" || day.dayType == "Normal") && day.totalHoursBusy >= 0
  }

  predicate ValidFields(req: Request) {
    ValidActivity(req.activity) && forall i :: 0 <= i < |req.calendar| ==> ValidDay(req.calendar[i])
  }

  /**
   * The calendar-length check: with a start date at least (end - start) + 1 + 3
   * entries, without one exactly 21.
   */
  function CheckCalendarDays(a: RawActivity, calendar: seq<CalendarDay>): (err: Option<ValidationError>)
    ensures err.None? <==>
      (if a.startOfActivity.Some? then |calendar| >= RequiredDays(a.startOfActivity.value, a.endOfActivity)
       else |calendar| == DefaultCalendarDays)
    ensures err.Some? ==> err.value.CalendarLength? && err.value.given == |calendar|
  {
    match a.startOfActivity
    case Some(start) =>
      var expected := RequiredDays(start, a.endOfActivity);
      if |calendar| < expected then Some(CalendarLength(expected, |calendar|)) else None
    case None =>
      if |calendar| != DefaultCalendarDays then Some(CalendarLength(DefaultCalendarDays, |calendar|)) else None
  }

  /** Days from start to end inclusive, plus the three days the end date may move forward. */
  function RequiredDays(start: int, end: int): int {
    (end - start) + 1 + 3
  }

  function ToActivity(a: RawActivity): Activity {
    Activity(a.estimatedHours, a.strategy, a.startOfActivity, a.endOfActivity)
  }

  /** Field validation first; the calendar-length check runs only on well-formed fields. */
  function Validate(req: Request): (r: Result<Activity, ValidationError>)
    ensures r.Success? <==> ValidFields(req) && CheckCalendarDays(req.activity, req.calendar).None?
    ensures r.Success? ==>
      && r.value.estimatedHours == req.activity.estimatedHours
      && r.value.strategy == req.activity.strategy
      && r.value.startOfActivity == req.activity.startOfActivity
      && r.value.endOfActivity == req.activity.endOfActivity
    ensures r.Failure? && ValidFields(req) ==> r.error.CalendarLength?
  {
    if !ValidFields(req) then Failure(InvalidField)
    else
      match CheckCalendarDays(req.activity, req.calendar)
      case Some(e) => Failure(e)
      case None => Success(ToActivity(req.activity))
  }

  /** The switch on the scheduler's code. */
  function Respond(code: int, solutions: seq<OutputSolution>): (resp: Response)
    ensures resp.Body? <==> code == 200 || code == 201
    ensures resp.Body? ==> resp.status == code && resp.result == code && resp.solutions == solutions
    ensures code == 200 ==> resp.Body? && resp.message == AssignedMessage
    ensures code == 201 ==> resp.Body? && resp.message == MovedMessage
    ensures code == 401 ==> resp == HttpError(401, NotAssignedDetail)
    ensures code == 505 ==> resp == HttpError(505, UnknownErrorDetail)
    ensures code !in {200, 201, 401, 505} ==> resp == HttpError(400, UnknownCodeDetail)
  {
    if code == 200 then Body(200, code, AssignedMessage, solutions)
    else if code == 201 then Body(201, code, MovedMessage, solutions)
    else if code == 401 then HttpError(401, NotAssignedDetail)
    else if code == 505 then HttpError(505, UnknownErrorDetail)
    else HttpError(400, UnknownCodeDetail)
  }

  function SolutionsOf(r: SchedulerResult): seq<OutputSolution> {
    if r.Solved? then r.solutions else []
  }

  /** The endpoint: validate, schedule, answer. */
  function CreateCalendarScheduledActivities(req: Request): (resp: Response)
    ensures StatusOf(resp) == 422 <==> Validate(req).Failure?
  {
    match Validate(req)
    case Failure(e) => Unprocessable(e)
    case Success(activity) =>
      var r := SearchDayToAssign(activity, req.calendar);
      Respond(r.code, SolutionsOf(r))
  }

  /** A strategy name the schema admits is one the scheduler dispatches on. */
  lemma KnownStrategyParses(name: string)
    ensures KnownStrategy(name) <==> ParseStrategy(name).Some?
  {
  }

  /**
   * Through the endpoint the scheduler's unknown-strategy branch is
   * unreachable, and so is the unknown-code branch: a response is 200, 201,
   * 401 or 422.
   */
  lemma EndpointStatuses(req: Request)
    ensures StatusOf(CreateCalendarScheduledActivities(req)) in {200, 201, 401, 422}
  {
    if Validate(req).Success? {
      var activity := Validate(req).value;
      KnownStrategyParses(activity.strategy);
      var r := SearchDayToAssign(activity, req.calendar);
      assert r.code != 505;
    }
  }

  /**
   * A valid request is answered 401 exactly when no candidate end date leaves
   * room for the estimate, and otherwise with between one and five solutions,
   * under 200 when they keep the requested end date and 201 when they move it.
   */
  lemma EndpointOutcome(req: Request)
    requires Validate(req).Success?
    ensures var resp := CreateCalendarScheduledActivities(req);
      var a := req.activity;
      && (StatusOf(resp) == 401 <==>
            forall d :: Candidate(d, a.endOfActivity, a.startOfActivity) ==>
              !Fits(a.estimatedHours, a.startOfActivity, d, req.calendar, BusyMap(req.calendar)))
      && (resp.Body? ==> 1 <= |resp.solutions| <= 5)
      && (resp.Body? ==> forall k :: 0 <= k < |resp.solutions| ==>
            (resp.solutions[k].newEndDate == a.endOfActivity <==> resp.status == 200))
  {
    var activity := Validate(req).value;
    KnownStrategyParses(activity.strategy);
    NotAssignedIff(activity, req.calendar);
  }

  /**
   * The required calendar lengths are exactly what a run of consecutive days
   * needs to cover every candidate window: from the start date (or 17 days
   * before the end date) through the end date plus three. The first and the
   * last of those days both belong to some candidate window.
   */
  lemma RequiredLengthCoversWindows(start: Option<int>, end: int)
    requires start.Some? ==> start.value <= end + 3
    ensures var first := if start.Some? then start.value else end - 17;
      && (end + 3) - first + 1 == (if start.Some? then RequiredDays(start.value, end) else DefaultCalendarDays)
      && (forall c :: Candidate(c, end, start) ==> first <= WindowStart(start, c) && c <= end + 3)
      && Candidate(end + 3, end, start)
      && exists c :: Candidate(c, end, start) && WindowStart(start, c) == first
  {
    var first := if start.Some? then start.value else end - 17;
    var c := if start.Some? then end + 3 else end - 3;
    assert Candidate(c, end, start) && WindowStart(start, c) == first;
  }
}

=== FILE: calendar.dfy ===
/**
 * Calendar days as the scheduler sees them: the day-type capacity rule, the
 * busy-hours table built from the calendar window, and the days of one
 * candidate window that still have free time.
 *
 * Dates are integer day numbers; "d + i days" is d + i.
 */
module Calendar {
  import opened Wrappers

  /** One entry of the calendar window supplied with a request. */
  datatype CalendarDay = CalendarDay(calendarDate: int, dayType: string, totalHoursBusy: int)

  /** A day of a candidate window that still has free time, and how much. */
  datatype AvailableDay = AvailableDay(calendarDate: int, dayType: string, timeAvailable: int)

  /** How far back from the end date the window reaches when the activity has no start date. */
  const DefaultWindowDays := 14

  /** Hours a day can hold: a "Normal" day holds 4, a day of any other type holds 8. */
  function Capacity(dayType: string): (h: int)
    ensures h == 4 || h == 8
    ensures h == 4 <==> dayType == "Normal"
  {
    if dayType == "Normal" then 4 else 8
  }

  /** The calendar entry at index i is the last one carrying its date. */
  predicate LastWithDate(calendar: seq<CalendarDay>, i: int)
    requires 0 <= i < |calendar|
  {
    forall j :: i < j < |calendar| ==> calendar[j].calendarDate != calendar[i].calendarDate
  }

  /** The busy-hours table, filled in calendar order: a later entry for a date overwrites an earlier one. */
  function BusyMap(calendar: seq<CalendarDay>): map<int, int> {
    if calendar == [] then map[]
    else
      var n := |calendar| - 1;
      BusyMap(calendar[..n])[calendar[n].calendarDate := calendar[n].totalHoursBusy]
  }

  /**
   * The table holds exactly the dates of the calendar, and each date is mapped
   * to the busy hours of the last entry carrying it.
   */
  lemma {:induction false} BusyMapLastWins(calendar: seq<CalendarDay>)
    ensures forall d :: d in BusyMap(calendar) <==>
      exists i :: 0 <= i < |calendar| && calendar[i].calendarDate == d
    ensures forall i :: 0 <= i < |calendar| && LastWithDate(calendar, i) ==>
      BusyMap(calendar)[calendar[i].calendarDate] == calendar[i].totalHoursBusy
    decreases |calendar|
  {
    if calendar != [] {
      var n := |calendar| - 1;
      var prefix := calendar[..n];
      BusyMapLastWins(prefix);
      assert forall i :: 0 <= i < n ==> prefix[i] == calendar[i];
      forall d
        ensures d in BusyMap(calendar) <==> exists i :: 0 <= i < |calendar| && calendar[i].calendarDate == d
      {
        if d in BusyMap(prefix) {
          var i :| 0 <= i < |prefix| && prefix[i].calendarDate == d;
          assert calendar[i].calendarDate == d;
        }
        if exists i :: 0 <= i < |calendar| && calendar[i].calendarDate == d {
          var i :| 0 <= i < |calendar| && calendar[i].calendarDate == d;
          if i < n {
            assert prefix[i].calendarDate == d;
          }
        }
      }
      forall i | 0 <= i < |calendar| && LastWithDate(calendar, i)
        ensures BusyMap(calendar)[calendar[i].calendarDate] == calendar[i].totalHoursBusy
      {
        if i < n {
          assert calendar[n].calendarDate != calendar[i].calendarDate;
          assert LastWithDate(prefix, i) by {
            forall j | i < j < |prefix|
              ensures prefix[j].calendarDate != prefix[i].calendarDate
            {
              assert calendar[j].calendarDate != calendar[i].calendarDate;
            }
          }
        }
      }
    }
  }

  /** busy_days.get(date, 0). */
  function BusyHours(busy: map<int, int>, date: int): int {
    if date in busy then busy[date] else 0
  }

  /** First day of the window ending at `end`: the start date, or `end` minus 14 days. */
  function WindowStart(start: Option<int>, end: int): (lower: int)
    ensures start.None? ==> lower == end - DefaultWindowDays
    ensures start.Some? ==> lower == start.value
  {
    match start
    case Some(s) => s
    case None => end - DefaultWindowDays
  }

  /** Free time of a calendar day: its capacity minus the busy hours recorded for its date. */
  function Residual(day: CalendarDay, busy: map<int, int>): int {
    Capacity(day.dayType) - BusyHours(busy, day.calendarDate)
  }

  /** A calendar day is offered for the window [lower, end] when it lies in it and has free time. */
  predicate Eligible(day: CalendarDay, lower: int, end: int, busy: map<int, int>) {
    lower <= day.calendarDate <= end && Residual(day, busy) > 0
  }

  function ToAvailable(day: CalendarDay, busy: map<int, int>): AvailableDay {
    AvailableDay(day.calendarDate, day.dayType, Residual(day, busy))
  }

  /**
   * The available days of the window [lower, end], in calendar order. A day
   * appears once per calendar entry, so a date listed twice is offered twice.
   */
  function AvailableIn(lower: int, end: int, calendar: seq<CalendarDay>, busy: map<int, int>)
    : (days: seq<AvailableDay>)
    ensures |days| <= |calendar|
    ensures forall k :: 0 <= k < |days| ==>
      lower <= days[k].calendarDate <= end && days[k].timeAvailable > 0 &&
      days[k].timeAvailable == Capacity(days[k].dayType) - BusyHours(busy, days[k].calendarDate)
  {
    if calendar == [] then []
    else
      var rest := AvailableIn(lower, end, calendar[1..], busy);
      if Eligible(calendar[0], lower, end, busy) then [ToAvailable(calendar[0], busy)] + rest else rest
  }

  /** A day is offered exactly when some calendar entry is eligible and gives that day. */
  lemma {:induction false} AvailableInMembers(lower: int, end: int, calendar: seq<CalendarDay>, busy: map<int, int>)
    ensures forall a :: a in AvailableIn(lower, end, calendar, busy) <==>
      exists i :: 0 <= i < |calendar| && Eligible(calendar[i], lower, end, busy) && a == ToAvailable(calendar[i], busy)
    decreases |calendar|
  {
    if calendar != [] {
      AvailableInMembers(lower, end, calendar[1..], busy);
      assert forall i :: 1 <= i < |calendar| ==> calendar[1..][i - 1] == calendar[i];
    }
  }

  /**
   * The offered days are the calendar filtered entry by entry: a single entry
   * gives its day when eligible and nothing otherwise, and the days of two
   * consecutive stretches of the calendar follow each other in calendar order.
   */
  lemma {:induction false} AvailableInConcat(lower: int, end: int, c1: seq<CalendarDay>, c2: seq<CalendarDay>, busy: map<int, int>)
    ensures AvailableIn(lower, end, c1 + c2, busy) == AvailableIn(lower, end, c1, busy) + AvailableIn(lower, end, c2, busy)
    ensures |c1| == 1 ==> AvailableIn(lower, end, c1, busy) == OfferedBy(c1[0], lower, end, busy)
    decreases |c1|
  {
    if c1 == [] {
      assert c1 + c2 == c2;
    } else {
      var c := c1 + c2;
      var head := OfferedBy(c1[0], lower, end, busy);
      AvailableInConcat(lower, end, c1[1..], c2, busy);
      assert c[0] == c1[0] && c[1..] == c1[1..] + c2;
      AvailableInUnfold(lower, end, c, busy);
      AvailableInUnfold(lower, end, c1, busy);
      calc {
        AvailableIn(lower, end, c, busy);
        head + AvailableIn(lower, end, c1[1..] + c2, busy);
        head + (AvailableIn(lower, end, c1[1..], busy) + AvailableIn(lower, end, c2, busy));
        { SeqAssoc(head, AvailableIn(lower, end, c1[1..], busy), AvailableIn(lower, end, c2, busy)); }
        (head + AvailableIn(lower, end, c1[1..], busy)) + AvailableIn(lower, end, c2, busy);
        AvailableIn(lower, end, c1, busy) + AvailableIn(lower, end, c2, busy);
      }
      if |c1| == 1 {
        assert c1[1..] == [];
        assert head + [] == head;
      }
    }
  }

  /** The day a single calendar entry offers: its own when eligible, none otherwise. */
  function OfferedBy(day: CalendarDay, lower: int, end: int, busy: map<int, int>): seq<AvailableDay> {
    if Eligible(day, lower, end, busy) then [ToAvailable(day, busy)] else []
  }

  lemma AvailableInUnfold(lower: int, end: int, calendar: seq<CalendarDay>, busy: map<int, int>)
    requires calendar != []
    ensures AvailableIn(lower, end, calendar, busy) == OfferedBy(calendar[0], lower, end, busy) + AvailableIn(lower, end, calendar[1..], busy)
  {
  }

  /** The dates of the calendar entries, in order. */
  function Dates(calendar: seq<CalendarDay>): seq<int> {
    seq(|calendar|, i requires 0 <= i < |calendar| => calendar[i].calendarDate)
  }

  /** The dates of offered days, in order. */
  function OfferedDates(days: seq<AvailableDay>): seq<int> {
    seq(|days|, i requires 0 <= i < |days| => days[i].calendarDate)
  }

  /** A calendar without repeated dates offers each date at most once. */
  lemma {:induction false} AvailableInUniqueDates(lower: int, end: int, calendar: seq<CalendarDay>, busy: map<int, int>)
    requires Distinct(Dates(calendar))
    ensures Distinct(OfferedDates(AvailableIn(lower, end, calendar, busy)))
    decreases |calendar|
  {
    if calendar != [] {
      var tail := calendar[1..];
      assert Distinct(Dates(tail)) by {
        forall i, j | 0 <= i < j < |tail|
          ensures Dates(tail)[i] != Dates(tail)[j]
        {
          assert Dates(tail)[i] == Dates(calendar)[i + 1];
          assert Dates(tail)[j] == Dates(calendar)[j + 1];
        }
      }
      AvailableInUniqueDates(lower, end, tail, busy);
      var rest := AvailableIn(lower, end, tail, busy);
      if Eligible(calendar[0], lower, end, busy) {
        AvailableInMembers(lower, end, tail, busy);
        var r := [ToAvailable(calendar[0], busy)] + rest;
        forall i, j | 0 <= i < j < |r|
          ensures OfferedDates(r)[i] != OfferedDates(r)[j]
        {
          assert r[j] == rest[j - 1];
          if i == 0 {
            assert rest[j - 1] in rest;
            var q :| 0 <= q < |tail| && Eligible(tail[q], lower, end, busy) && rest[j - 1] == ToAvailable(tail[q], busy);
            assert tail[q] == calendar[q + 1];
            assert Dates(calendar)[0] != Dates(calendar)[q + 1];
          } else {
            assert r[i] == rest[i - 1];
            assert OfferedDates(rest)[i - 1] != OfferedDates(rest)[j - 1];
          }
        }
      }
    }
  }

  /**
   * A date listed twice is offered twice, each time with its full free time:
   * two empty Normal entries for day 0 offer 4 hours twice.
   */
  lemma DuplicateDateOfferedTwice()
    ensures var calendar := [CalendarDay(0, "Normal", 0), CalendarDay(0, "Normal", 0)];
      AvailableIn(-14, 0, calendar, BusyMap(calendar)) == [AvailableDay(0, "Normal", 4), AvailableDay(0, "Normal", 4)]
  {
    var calendar := [CalendarDay(0, "Normal", 0), CalendarDay(0, "Normal", 0)];
    assert BusyMap(calendar)[0] == 0;
  }

  /** The available days for an activity whose (candidate) end date is `end`. */
  function AvailableDays(start: Option<int>, end: int, calendar: seq<CalendarDay>, busy: map<int, int>)
    : seq<AvailableDay>
  {
    AvailableIn(WindowStart(start, end), end, calendar, busy)
  }
}

=== FILE: line_cleaner.dfy ===
/**
 * The general line cleaner of the timetable scraper, format_text(text, patron)
 * with no pattern: tabs are deleted, the text is cut into lines, empty lines
 * and lines holding a single space are dropped, and the rest are joined again
 * with newlines.
 */
module LineCleaner {
  import opened Text

  /** A line the cleaner keeps: neither empty nor a single space. */
  predicate Kept(line: string) {
    line != "" && line != " "
  }

  /** The lines that are kept, in their original order. */
  function KeepLines(lines: seq<string>): (r: seq<string>)
    ensures forall i :: 0 <= i < |r| ==> Kept(r[i]) && r[i] in lines
  {
    if lines == [] then []
    else
      (if Kept(lines[0]) then [lines[0]] else []) + KeepLines(lines[1..])
  }

  /** Every kept line occurs as often as in the input, and no other line occurs. */
  lemma {:induction false} KeepLinesCounts(lines: seq<string>)
    ensures forall l :: multiset(KeepLines(lines))[l] == if Kept(l) then multiset(lines)[l] else 0
    decreases |lines|
  {
    if lines != [] {
      KeepLinesCounts(lines[1..]);
      assert lines == [lines[0]] + lines[1..];
    }
  }

  /** format_text(text, None). */
  function FormatText(text: string): (r: string)
    ensures '\t' !in r
    ensures r == "" || forall i :: 0 <= i < |Split(r, "\n")| ==> Kept(Split(r, "\n")[i])
  {
    var lines := Split(RemoveChar(text, '\t'), "\n");
    var kept := KeepLines(lines);
    NoTabInLines(text);
    SplitPiecesWithout(RemoveChar(text, '\t'), '\n');
    CleanedLines(kept);
    Join(kept, "\n")
  }

  /** The pieces of the tab-stripped text hold no tab. */
  lemma NoTabInLines(text: string)
    ensures forall i :: 0 <= i < |Split(RemoveChar(text, '\t'), "\n")| ==>
      '\t' !in Split(RemoveChar(text, '\t'), "\n")[i]
  {
    var s := RemoveChar(text, '\t');
    var lines := Split(s, "\n");
    forall i | 0 <= i < |lines|
      ensures '\t' !in lines[i]
    {
      if '\t' in lines[i] {
        JoinContains(lines, "\n", i, '\t');
        JoinSplit(s, "\n");
      }
    }
  }

  /**
   * Joining lines that hold neither a tab nor a newline and are all kept gives a
   * tab-free text whose lines are exactly those lines (unless there are none).
   */
  lemma CleanedLines(kept: seq<string>)
    requires forall i :: 0 <= i < |kept| ==> Kept(kept[i]) && '\t' !in kept[i] && '\n' !in kept[i]
    ensures '\t' !in Join(kept, "\n")
    ensures Join(kept, "\n") == "" <==> kept == []
    ensures kept != [] ==> Split(Join(kept, "\n"), "\n") == kept
  {
    if '\t' in Join(kept, "\n") {
      JoinMember(kept, "\n", '\t');
    }
    if kept != [] {
      JoinFirst(kept, "\n");
      SplitJoin(kept, "\n");
    }
  }

  /**
   * The lines of the result are exactly the kept lines of the tab-stripped input,
   * unchanged and in their original order; the result is empty exactly when no
   * line is kept.
   */
  lemma ResultLines(text: string)
    ensures var kept := KeepLines(Split(RemoveChar(text, '\t'), "\n"));
      && (FormatText(text) == "" <==> kept == [])
      && (kept != [] ==> Split(FormatText(text), "\n") == kept)
  {
    var kept := KeepLines(Split(RemoveChar(text, '\t'), "\n"));
    NoTabInLines(text);
    SplitPiecesWithout(RemoveChar(text, '\t'), '\n');
    CleanedLines(kept);
  }

  /** Cleaning a text twice gives the same result as cleaning it once. */
  lemma Idempotent(text: string)
    ensures FormatText(FormatText(text)) == FormatText(text)
  {
    var r := FormatText(text);
    var kept := KeepLines(Split(RemoveChar(text, '\t'), "\n"));
    NoTabInLines(text);
    SplitPiecesWithout(RemoveChar(text, '\t'), '\n');
    CleanedLines(kept);
    assert r == Join(kept, "\n");
    if kept == [] {
      assert r == "";
      assert RemoveChar(r, '\t') == "";
      assert Split("", "\n") == [""];
    } else {
      RemoveCharAbsent(r, '\t');
      assert Split(RemoveChar(r, '\t'), "\n") == kept;
      KeepAllKept(kept);
    }
  }

  /** Lines that are all kept pass through unchanged. */
  lemma {:induction false} KeepAllKept(lines: seq<string>)
    requires forall i :: 0 <= i < |lines| ==> Kept(lines[i])
    ensures KeepLines(lines) == lines
  {
    if lines != [] {
      KeepAllKept(lines[1..]);
      assert lines == [lines[0]] + lines[1..];
    }
  }

  /**
   * Filtering distributes over concatenation: the kept lines of a text keep
   * the relative order they had in it.
   */
  lemma {:induction false} KeepLinesConcat(xs: seq<string>, ys: seq<string>)
    ensures KeepLines(xs + ys) == KeepLines(xs) + KeepLines(ys)
    decreases |xs|
  {
    if xs == [] {
      assert xs + ys == ys;
    } else {
      var head: seq<string> := if Kept(xs[0]) then [xs[0]] else [];
      assert (xs + ys)[0] == xs[0];
      assert (xs + ys)[1..] == xs[1..] + ys;
      assert KeepLines(xs + ys) == head + KeepLines(xs[1..] + ys);
      KeepLinesConcat(xs[1..], ys);
      assert KeepLines(xs) == head + KeepLines(xs[1..]);
    }
  }
}

=== FILE: ranking.dfy ===
/**
 * Ranking of the solutions found by the aggressive strategy: a stable sort,
 * strongest first, on the key (more hours in the first three entries, then
 * earlier date of the first entry). Entries are taken in the order the
 * solution lists them, which is calendar order, not necessarily date order.
 */
module Ranking {
  import opened Wrappers
  import opened Allocation

  /** Hours of the first three entries of a solution. */
  function LeadHours(s: Solution): int {
    Hours(s[..Min(3, |s|)])
  }

  function FirstDate(s: Solution): int
    requires s != []
  {
    s[0].calendarDate
  }

  predicate NonEmpty(sols: seq<Solution>) {
    forall k :: 0 <= k < |sols| ==> sols[k] != []
  }

  /** a ranks no later than b: more lead hours, or as many and a first date no later than b's. */
  predicate RankedBefore(a: Solution, b: Solution)
    requires a != [] && b != []
  {
    LeadHours(a) > LeadHours(b) || (LeadHours(a) == LeadHours(b) && FirstDate(a) <= FirstDate(b))
  }

  /** a and b have the same sort key. */
  predicate SameKey(a: Solution, b: Solution)
    requires a != [] && b != []
  {
    LeadHours(a) == LeadHours(b) && FirstDate(a) == FirstDate(b)
  }

  predicate Ranked(sols: seq<Solution>)
    requires NonEmpty(sols)
  {
    forall i, j :: 0 <= i < j < |sols| ==> RankedBefore(sols[i], sols[j])
  }

  /** The solutions that share a's sort key, in their order of appearance. */
  function WithKeyOf(sols: seq<Solution>, a: Solution): seq<Solution>
    requires NonEmpty(sols) && a != []
  {
    if sols == [] then []
    else (if SameKey(sols[0], a) then [sols[0]] else []) + WithKeyOf(sols[1..], a)
  }

  /** Places s before the first solution it ranks no later than. */
  function Insert(s: Solution, sols: seq<Solution>): (r: seq<Solution>)
    requires s != [] && NonEmpty(sols)
    ensures NonEmpty(r)
    ensures multiset(r) == multiset(sols) + multiset{s}
  {
    if sols == [] then [s]
    else if RankedBefore(s, sols[0]) then
      [s] + sols
    else
      assert sols == [sols[0]] + sols[1..];
      [sols[0]] + Insert(s, sols[1..])
  }

  /** Inserting into a ranked list gives a ranked list. */
  lemma {:induction false} InsertRanked(s: Solution, sols: seq<Solution>)
    requires s != [] && NonEmpty(sols) && Ranked(sols)
    ensures Ranked(Insert(s, sols))
    decreases |sols|
  {
    if sols != [] {
      if RankedBefore(s, sols[0]) {
        forall j | 0 <= j < |sols|
          ensures RankedBefore(s, sols[j])
        {
          if j > 0 {
            assert RankedBefore(sols[0], sols[j]);
          }
        }
        RankedCons(s, sols);
      } else {
        var rest := Insert(s, sols[1..]);
        assert Ranked(sols[1..]);
        InsertRanked(s, sols[1..]);
        HeadRanksFirst(s, sols, rest);
        RankedCons(sols[0], rest);
      }
    }
  }

  /** After a solution s fails to rank before the head, the head ranks before everything inserted behind it. */
  lemma HeadRanksFirst(s: Solution, sols: seq<Solution>, rest: seq<Solution>)
    requires s != [] && NonEmpty(sols) && sols != [] && Ranked(sols) && !RankedBefore(s, sols[0])
    requires NonEmpty(rest) && multiset(rest) == multiset(sols[1..]) + multiset{s}
    ensures forall j :: 0 <= j < |rest| ==> RankedBefore(sols[0], rest[j])
  {
    forall j | 0 <= j < |rest|
      ensures RankedBefore(sols[0], rest[j])
    {
      assert rest[j] in multiset(rest);
      if rest[j] != s {
        assert rest[j] in multiset(sols[1..]);
        var k :| 0 <= k < |sols[1..]| && sols[1..][k] == rest[j];
        assert sols[k + 1] == rest[j];
      }
    }
  }

  /** A solution ranking before every member of a ranked list can head it. */
  lemma RankedCons(x: Solution, sols: seq<Solution>)
    requires x != [] && NonEmpty(sols) && Ranked(sols)
    requires forall j :: 0 <= j < |sols| ==> RankedBefore(x, sols[j])
    ensures NonEmpty([x] + sols) && Ranked([x] + sols)
  {
    var r := [x] + sols;
    forall i, j | 0 <= i < j < |r|
      ensures RankedBefore(r[i], r[j])
    {
      assert r[j] == sols[j - 1];
      if i > 0 {
        assert r[i] == sols[i - 1];
      }
    }
  }

  /** sorted(sols, key=...) for the aggressive strategy. */
  function RankAggressive(sols: seq<Solution>): (r: seq<Solution>)
    requires NonEmpty(sols)
    ensures NonEmpty(r)
    ensures multiset(r) == multiset(sols)
    ensures Ranked(r)
  {
    if sols == [] then []
    else
      assert sols == [sols[0]] + sols[1..];
      var rest := RankAggressive(sols[1..]);
      InsertRanked(sols[0], rest);
      Insert(sols[0], rest)
  }

  /** [x] when x shares a's sort key, otherwise nothing. */
  function KeyHead(x: Solution, a: Solution): seq<Solution>
    requires x != [] && a != []
  {
    if SameKey(x, a) then [x] else []
  }

  lemma WithKeyOfCons(x: Solution, xs: seq<Solution>, a: Solution)
    requires x != [] && a != [] && NonEmpty(xs)
    ensures NonEmpty([x] + xs)
    ensures WithKeyOf([x] + xs, a) == KeyHead(x, a) + WithKeyOf(xs, a)
  {
    assert ([x] + xs)[1..] == xs;
  }

  /** Inserting keeps the relative order of the solutions sharing any one key, with s first among its own. */
  lemma {:induction false} InsertStable(s: Solution, sols: seq<Solution>, a: Solution)
    requires s != [] && a != [] && NonEmpty(sols)
    ensures WithKeyOf(Insert(s, sols), a) == WithKeyOf([s] + sols, a)
    decreases |sols|
  {
    if sols != [] && !RankedBefore(s, sols[0]) {
      var h := sols[0];
      var tail := sols[1..];
      assert sols == [h] + tail;
      var rest := Insert(s, tail);
      assert Insert(s, sols) == [h] + rest;
      InsertStable(s, tail, a);
      WithKeyOfCons(h, rest, a);
      WithKeyOfCons(s, tail, a);
      WithKeyOfCons(s, sols, a);
      WithKeyOfCons(h, tail, a);
      assert !(SameKey(s, a) && SameKey(h, a));
      assert KeyHead(h, a) + KeyHead(s, a) == KeyHead(s, a) + KeyHead(h, a);
    } else if sols == [] {
      assert [s] + sols == [s];
    } else {
      assert Insert(s, sols) == [s] + sols;
    }
  }

  /**
   * The ranking is the stable sort on the key: it is ordered, it is a
   * permutation, and solutions with equal keys keep their collection order.
   */
  lemma {:induction false} RankAggressiveStable(sols: seq<Solution>, a: Solution)
    requires NonEmpty(sols) && a != []
    ensures WithKeyOf(RankAggressive(sols), a) == WithKeyOf(sols, a)
    decreases |sols|
  {
    if sols != [] {
      var rest := RankAggressive(sols[1..]);
      RankAggressiveStable(sols[1..], a);
      InsertStable(sols[0], rest, a);
      assert ([sols[0]] + rest)[1..] == rest;
    }
  }
}

=== FILE: scheduler.dfy ===
/**
 * The scheduler's entry point: the candidate end dates tried around the
 * activity's end date, the strategy run for each candidate, and the result
 * code with the formatted solutions.
 */
module Scheduler {
  import opened Wrappers
  import opened Calendar
  import opened Allocation
  import opened Ranking

  datatype Strategy = Agresiva | Calmada | Completa

  /** The strategy names the scheduler dispatches on; any other name is unknown. */
  function StrategyName(st: Strategy): string {
    match st
    case Agresiva => "Agresiva"
    case Calmada => "Calmada"
    case Completa => "Completa"
  }

  function ParseStrategy(name: string): (st: Option<Strategy>)
    ensures st.Some? ==> StrategyName(st.value) == name
  {
    if name == "Agresiva" then Some(Agresiva)
    else if name == "Calmada" then Some(Calmada)
    else if name == "Completa" then Some(Completa)
    else None
  }

  /** The three names are recognised, and nothing else is. */
  lemma ParseStrategyName(st: Strategy, name: string)
    ensures ParseStrategy(StrategyName(st)) == Some(st)
    ensures ParseStrategy(name).None? <==> forall s: Strategy :: StrategyName(s) != name
  {
    if ParseStrategy(name).None? {
      forall s: Strategy
        ensures StrategyName(s) != name
      {
        match s
        case Agresiva =>
        case Calmada =>
        case Completa =>
      }
    }
  }

  /** The activity as the scheduler receives it; the strategy is still the name given. */
  datatype Activity = Activity(estimatedHours: int, strategy: string, startOfActivity: Option<int>, endOfActivity: int)

  /**
   * Rank of an end date that lies `offset` days after the nominal one:
   * 0, +1, +2, +3 first, then -1, -2, -3.
   */
  function Priority(offset: int): nat {
    if offset >= 0 then offset else 3 - offset
  }

  /** The candidates appear in strictly increasing priority relative to `end`. */
  predicate InPriorityOrder(ds: seq<int>, end: int) {
    forall i, j :: 0 <= i < j < |ds| ==> Priority(ds[i] - end) < Priority(ds[j] - end)
  }

  /** The dates of ds within [lo, hi], in their order. */
  function KeepWithin(ds: seq<int>, lo: int, hi: int): (r: seq<int>)
    ensures forall d :: d in r <==> d in ds && lo <= d <= hi
  {
    if ds == [] then []
    else
      var rest := KeepWithin(ds[1..], lo, hi);
      if lo <= ds[0] <= hi then [ds[0]] + rest else rest
  }

  /** Filtering keeps the priority order. */
  lemma {:induction false} KeepWithinOrdered(ds: seq<int>, lo: int, hi: int, end: int)
    requires InPriorityOrder(ds, end)
    ensures InPriorityOrder(KeepWithin(ds, lo, hi), end)
    decreases |ds|
  {
    if ds != [] {
      var tail := ds[1..];
      var rest := KeepWithin(tail, lo, hi);
      assert InPriorityOrder(tail, end) by {
        forall i, j | 0 <= i < j < |tail|
          ensures Priority(tail[i] - end) < Priority(tail[j] - end)
        {
          assert tail[i] == ds[i + 1] && tail[j] == ds[j + 1];
        }
      }
      KeepWithinOrdered(tail, lo, hi, end);
      if lo <= ds[0] <= hi {
        var r := [ds[0]] + rest;
        forall i, j | 0 <= i < j < |r|
          ensures Priority(r[i] - end) < Priority(r[j] - end)
        {
          assert r[j] == rest[j - 1];
          if i > 0 {
            assert r[i] == rest[i - 1];
          } else {
            assert rest[j - 1] in tail;
            var k :| 0 <= k < |tail| && tail[k] == rest[j - 1];
            assert ds[k + 1] == r[j];
          }
        }
      }
    }
  }

  /**
   * The end dates tried, in order: end, end+1, end+2, end+3, end-1, end-2,
   * end-3; with a start date only those from the start date on (and at most
   * end+3) are kept.
   */
  function CandidateEnds(end: int, start: Option<int>): (ds: seq<int>)
    ensures forall d :: d in ds <==> Candidate(d, end, start)
    ensures InPriorityOrder(ds, end)
  {
    var margin := [end, end + 1, end + 2, end + 3, end - 1, end - 2, end - 3];
    assert forall d :: d in margin <==> end - 3 <= d <= end + 3;
    match start
    case None => margin
    case Some(s) =>
      KeepWithinOrdered(margin, s, end + 3, end);
      KeepWithin(margin, s, end + 3)
  }

  /** d is within three days of the end date and, when there is a start date, not before it. */
  predicate Candidate(d: int, end: int, start: Option<int>) {
    end - 3 <= d <= end + 3 && (start.Some? ==> start.value <= d)
  }

  /** A candidate end date lets the estimate be allocated: it is positive and fits the window's free hours. */
  predicate Fits(est: int, start: Option<int>, candidate: int, calendar: seq<CalendarDay>, busy: map<int, int>) {
    0 < est <= FreeHours(AvailableDays(start, candidate, calendar, busy))
  }

  /**
   * One strategy run for one candidate end date: the solutions recorded for
   * its window, ranked for the aggressive strategy and in collection order
   * otherwise. The aggressive strategy tries each day's values largest
   * first, the others smallest first.
   */
  function Attempt(st: Strategy, est: int, start: Option<int>, candidate: int, calendar: seq<CalendarDay>, busy: map<int, int>)
    : (sols: seq<Solution>)
    ensures |sols| <= MaxSolutions
    ensures sols != [] <==> Fits(est, start, candidate, calendar, busy)
  {
    var days := AvailableDays(start, candidate, calendar, busy);
    var found := Solve(days, est, st == Agresiva);
    SolveSound(days, est, st == Agresiva);
    SolveSucceedsIff(days, est, st == Agresiva);
    if st == Agresiva then
      var ranked := RankAggressive(found);
      assert |ranked| == |multiset(ranked)| == |found|;
      ranked
    else
      found
  }

  /** Every solution of a run is non-empty, adds up to the estimate, and fits the candidate's window day by day. */
  lemma AttemptSound(st: Strategy, est: int, start: Option<int>, candidate: int, calendar: seq<CalendarDay>, busy: map<int, int>)
    ensures forall s: Solution :: s in Attempt(st, est, start, candidate, calendar, busy) ==>
      s != [] && Hours(s) == est && forall k :: 0 <= k < |s| ==> FitsWindow(s[k], AvailableDays(start, candidate, calendar, busy))
  {
    var days := AvailableDays(start, candidate, calendar, busy);
    var found := Solve(days, est, st == Agresiva);
    SolveSound(days, est, st == Agresiva);
    if st == Agresiva {
      var ranked := RankAggressive(found);
      forall s | s in ranked
        ensures s in found
      {
        assert s in multiset(ranked);
      }
    }
  }

  /** The aggressive run is the ranked permutation of the solutions collected with largest-first values. */
  lemma AttemptRanked(est: int, start: Option<int>, candidate: int, calendar: seq<CalendarDay>, busy: map<int, int>)
    ensures var sols := Attempt(Agresiva, est, start, candidate, calendar, busy);
      && NonEmpty(sols) && Ranked(sols)
      && multiset(sols) == multiset(Solve(AvailableDays(start, candidate, calendar, busy), est, true))
  {
    SolveSound(AvailableDays(start, candidate, calendar, busy), est, true);
  }

  /** Over a calendar without repeated dates, no solution of a run books a date twice. */
  lemma AttemptUniqueDates(st: Strategy, est: int, start: Option<int>, candidate: int, calendar: seq<CalendarDay>, busy: map<int, int>)
    requires Distinct(Dates(calendar))
    ensures forall s: Solution :: s in Attempt(st, est, start, candidate, calendar, busy) ==> Distinct(EntryDates(s))
  {
    var days := AvailableDays(start, candidate, calendar, busy);
    var found := Solve(days, est, st == Agresiva);
    AvailableInUniqueDates(WindowStart(start, candidate), candidate, calendar, busy);
    SolveUniqueDates(days, est, st == Agresiva);
    SolveSound(days, est, st == Agresiva);
    if st == Agresiva {
      var ranked := RankAggressive(found);
      forall s | s in ranked
        ensures s in found
      {
        assert s in multiset(ranked);
      }
    }
  }

  /**
   * A run yields min(5, number of solutions of the window's system) results
   * for a positive estimate, and none otherwise.
   */
  lemma AttemptCount(st: Strategy, est: int, start: Option<int>, candidate: int, calendar: seq<CalendarDay>, busy: map<int, int>)
    ensures |Attempt(st, est, start, candidate, calendar, busy)|
      == if est > 0 then Min(MaxSolutions, |Assignments(Limits(AvailableDays(start, candidate, calendar, busy)), est, st == Agresiva)|) else 0
  {
    var days := AvailableDays(start, candidate, calendar, busy);
    var found := Solve(days, est, st == Agresiva);
    SolveSound(days, est, st == Agresiva);
    if est > 0 {
      SolveCount(days, est, st == Agresiva);
    }
    if st == Agresiva {
      var ranked := RankAggressive(found);
      assert |ranked| == |multiset(ranked)| == |found|;
    }
  }

  /** Over a calendar without repeated dates, a run never returns the same solution twice. */
  lemma AttemptDistinct(st: Strategy, est: int, start: Option<int>, candidate: int, calendar: seq<CalendarDay>, busy: map<int, int>)
    requires Distinct(Dates(calendar))
    ensures Distinct(Attempt(st, est, start, candidate, calendar, busy))
  {
    var days := AvailableDays(start, candidate, calendar, busy);
    var found := Solve(days, est, st == Agresiva);
    AvailableInUniqueDates(WindowStart(start, candidate), candidate, calendar, busy);
    SolveDistinct(days, est, st == Agresiva);
    SolveSound(days, est, st == Agresiva);
    if st == Agresiva {
      DistinctPermutation(found, RankAggressive(found));
    }
  }

  /**
   * With a date listed twice, two different assignments of the search give
   * the same solution: 4 hours on the first copy of day 0 and 4 hours on the
   * second are both recorded, and both read as 4 hours on day 0.
   */
  lemma DuplicateDateRepeatsSolution()
    ensures var calendar := [CalendarDay(0, "Normal", 0), CalendarDay(0, "Normal", 0)];
      var days := AvailableDays(None, 0, calendar, BusyMap(calendar));
      && |days| == 2
      && Accepted([4, 0], days, 4) && Accepted([0, 4], days, 4)
      && Entries([4, 0], days) == Entries([0, 4], days) == [Entry(0, "Normal", 4)]
  {
    var calendar := [CalendarDay(0, "Normal", 0), CalendarDay(0, "Normal", 0)];
    DuplicateDateOfferedTwice();
    var days := AvailableDays(None, 0, calendar, BusyMap(calendar));
    assert days == [AvailableDay(0, "Normal", 4), AvailableDay(0, "Normal", 4)];
    EntriesUnfold([4, 0], days);
    EntriesUnfold([0, 4], days);
    assert [4, 0][1..] == [0] && [0, 4][1..] == [4];
    EntriesUnfold([0], days[1..]);
    EntriesUnfold([4], days[1..]);
    assert [0][1..] == [] && [4][1..] == [];
  }

  /**
   * A date listed twice in the calendar is two days to fill: an 8-hour
   * activity ending on day 0 fits a calendar that lists Normal day 0 twice,
   * although a Normal day holds 4 hours.
   */
  lemma DuplicateDateOverbooks()
    ensures var calendar := [CalendarDay(0, "Normal", 0), CalendarDay(0, "Normal", 0)];
      Capacity("Normal") == 4 && Fits(8, None, 0, calendar, BusyMap(calendar))
  {
    var calendar := [CalendarDay(0, "Normal", 0), CalendarDay(0, "Normal", 0)];
    DuplicateDateOfferedTwice();
    var days := AvailableDays(None, 0, calendar, BusyMap(calendar));
    assert days == [AvailableDay(0, "Normal", 4), AvailableDay(0, "Normal", 4)];
    assert Limit(days[0]) == 4 && Limit(days[1]) == 4;
    assert Limits(days) == [4, 4];
    assert FreeHours(days) == Sum([4, 4]) == 8;
  }

  /** For each candidate end date, in order: does the strategy run for it yield solutions? */
  function Outcomes(st: Strategy, est: int, start: Option<int>, candidates: seq<int>, calendar: seq<CalendarDay>, busy: map<int, int>)
    : (ok: seq<bool>)
    ensures |ok| == |candidates|
    ensures forall k :: 0 <= k < |candidates| ==> (ok[k] <==> Fits(est, start, candidates[k], calendar, busy))
  {
    seq(|candidates|, k requires 0 <= k < |candidates| => Attempt(st, est, start, candidates[k], calendar, busy) != [])
  }

  /** The position of the first true outcome. */
  function FirstTrue(ok: seq<bool>): (i: Option<nat>)
    ensures i.None? <==> forall k :: 0 <= k < |ok| ==> !ok[k]
    ensures i.Some? ==> i.value < |ok| && ok[i.value] && forall k :: 0 <= k < i.value ==> !ok[k]
  {
    if ok == [] then None
    else if ok[0] then Some(0)
    else
      match FirstTrue(ok[1..])
      case None => None
      case Some(j) => Some(j + 1)
  }

  /**
   * The position of the first candidate, in the order given, whose run yields
   * solutions. search_day_to_assign breaks out of its loop at that candidate;
   * since the runs are pure, running the later ones as well changes nothing.
   */
  function FirstSuccess(st: Strategy, est: int, start: Option<int>, candidates: seq<int>, calendar: seq<CalendarDay>, busy: map<int, int>)
    : (i: Option<nat>)
    ensures i.None? <==> forall k :: 0 <= k < |candidates| ==> !Fits(est, start, candidates[k], calendar, busy)
    ensures i.Some? ==> i.value < |candidates| && FirstFit(est, start, candidates, i.value, calendar, busy)
  {
    FirstTrue(Outcomes(st, est, start, candidates, calendar, busy))
  }

  /** Candidate i fits and no earlier candidate does. */
  predicate FirstFit(est: int, start: Option<int>, candidates: seq<int>, i: int, calendar: seq<CalendarDay>, busy: map<int, int>)
    requires 0 <= i < |candidates|
  {
    && Fits(est, start, candidates[i], calendar, busy)
    && forall j :: 0 <= j < i ==> !Fits(est, start, candidates[j], calendar, busy)
  }

  datatype DayStatus = Ocupado | Libre

  datatype ScheduleEntry = ScheduleEntry(calendarDate: int, assignedHours: int)

  datatype ModifiedDay = ModifiedDay(calendarDate: int, dayType: string, status: DayStatus)

  datatype OutputSolution = OutputSolution(newEndDate: int, schedule: seq<ScheduleEntry>, modifiedCalendar: seq<ModifiedDay>)

  /** What the scheduler returns: a code with solutions (200, 201), or a bare code (401, 505). */
  datatype SchedulerResult = Solved(code: int, solutions: seq<OutputSolution>) | Failed(code: int)

  /** A day is marked busy when the activity takes all of its type's capacity; hours already busy are not counted. */
  function Status(e: Entry): (st: DayStatus)
    ensures st == Ocupado <==> e.assignedHours == Capacity(e.dayType)
  {
    if e.assignedHours == Capacity(e.dayType) then Ocupado else Libre
  }

  /** One solution in output form: the schedule and the modified calendar, entry by entry. */
  function FormatSolution(s: Solution, endDate: int): (o: OutputSolution)
    ensures o.newEndDate == endDate
    ensures |o.schedule| == |s| && |o.modifiedCalendar| == |s|
    ensures forall k :: 0 <= k < |s| ==> o.schedule[k] == ScheduleEntry(s[k].calendarDate, s[k].assignedHours)
    ensures forall k :: 0 <= k < |s| ==>
      o.modifiedCalendar[k].calendarDate == s[k].calendarDate && o.modifiedCalendar[k].dayType == s[k].dayType
    ensures forall k :: 0 <= k < |s| ==>
      (o.modifiedCalendar[k].status == Ocupado <==> s[k].assignedHours == Capacity(s[k].dayType))
  {
    OutputSolution(endDate,
      seq(|s|, k requires 0 <= k < |s| => ScheduleEntry(s[k].calendarDate, s[k].assignedHours)),
      seq(|s|, k requires 0 <= k < |s| => ModifiedDay(s[k].calendarDate, s[k].dayType, Status(s[k]))))
  }

  /** Reads a solution back from its output form. */
  function Unformat(o: OutputSolution): (s: Solution)
    requires |o.schedule| == |o.modifiedCalendar|
    ensures |s| == |o.schedule|
    ensures forall k :: 0 <= k < |s| ==>
      s[k] == Entry(o.schedule[k].calendarDate, o.modifiedCalendar[k].dayType, o.schedule[k].assignedHours)
    decreases |o.schedule|
  {
    if o.schedule == [] then []
    else
      var rest := Unformat(OutputSolution(o.newEndDate, o.schedule[1..], o.modifiedCalendar[1..]));
      [Entry(o.schedule[0].calendarDate, o.modifiedCalendar[0].dayType, o.schedule[0].assignedHours)] + rest
  }

  /** The output form loses nothing: the solution can be read back from it. */
  lemma UnformatFormat(s: Solution, endDate: int)
    ensures Unformat(FormatSolution(s, endDate)) == s
  {
    var o := FormatSolution(s, endDate);
    var t := Unformat(o);
    assert |t| == |s|;
    forall k | 0 <= k < |s|
      ensures t[k] == s[k]
    {
    }
  }

  function FormatAll(sols: seq<Solution>, endDate: int): (out: seq<OutputSolution>)
    ensures |out| == |sols|
    ensures forall k :: 0 <= k < |sols| ==> out[k] == FormatSolution(sols[k], endDate)
  {
    if sols == [] then [] else [FormatSolution(sols[0], endDate)] + FormatAll(sols[1..], endDate)
  }

  /** Hours of a schedule. */
  function Scheduled(schedule: seq<ScheduleEntry>): int {
    if schedule == [] then 0 else schedule[0].assignedHours + Scheduled(schedule[1..])
  }

  /**
   * search_day_to_assign: 505 for an unknown strategy; otherwise the first
   * candidate end date with solutions gives 200 (the nominal end date) or
   * 201 (a moved one) with those solutions, and 401 when no candidate has any.
   */
  function SearchDayToAssign(activity: Activity, calendar: seq<CalendarDay>): (r: SchedulerResult)
    ensures r.code in {200, 201, 401, 505}
    ensures r.code == 505 <==> ParseStrategy(activity.strategy).None?
    ensures r.Solved? <==> r.code == 200 || r.code == 201
    ensures r.Solved? ==> 1 <= |r.solutions| <= MaxSolutions
    ensures r.Solved? ==> forall k :: 0 <= k < |r.solutions| ==>
      (r.solutions[k].newEndDate == activity.endOfActivity <==> r.code == 200)
  {
    var candidates := CandidateEnds(activity.endOfActivity, activity.startOfActivity);
    var busy := BusyMap(calendar);
    match ParseStrategy(activity.strategy)
    case None => Failed(505)
    case Some(st) =>
      match FirstSuccess(st, activity.estimatedHours, activity.startOfActivity, candidates, calendar, busy)
      case None => Failed(401)
      case Some(i) =>
        var endDate := candidates[i];
        var solutions := Attempt(st, activity.estimatedHours, activity.startOfActivity, endDate, calendar, busy);
        Solved(if endDate == activity.endOfActivity then 200 else 201, FormatAll(solutions, endDate))
  }

  /** The winning strategy and candidate index behind a result with solutions. */
  lemma SolvedFrom(a: Activity, calendar: seq<CalendarDay>) returns (st: Strategy, i: int)
    requires SearchDayToAssign(a, calendar).Solved?
    ensures ParseStrategy(a.strategy) == Some(st)
    ensures 0 <= i < |CandidateEnds(a.endOfActivity, a.startOfActivity)|
    ensures FirstFit(a.estimatedHours, a.startOfActivity, CandidateEnds(a.endOfActivity, a.startOfActivity), i, calendar, BusyMap(calendar))
    ensures var d := CandidateEnds(a.endOfActivity, a.startOfActivity)[i];
      SearchDayToAssign(a, calendar).solutions ==
        FormatAll(Attempt(st, a.estimatedHours, a.startOfActivity, d, calendar, BusyMap(calendar)), d)
  {
    var candidates := CandidateEnds(a.endOfActivity, a.startOfActivity);
    var busy := BusyMap(calendar);
    st := ParseStrategy(a.strategy).value;
    i := FirstSuccess(st, a.estimatedHours, a.startOfActivity, candidates, calendar, busy).value;
  }

  /** The index, among the candidates, of the end date that every output solution carries. */
  lemma SolvedAt(a: Activity, calendar: seq<CalendarDay>) returns (i: int)
    requires SearchDayToAssign(a, calendar).Solved?
    ensures 0 <= i < |CandidateEnds(a.endOfActivity, a.startOfActivity)|
    ensures FirstFit(a.estimatedHours, a.startOfActivity, CandidateEnds(a.endOfActivity, a.startOfActivity), i, calendar, BusyMap(calendar))
    ensures forall k :: 0 <= k < |SearchDayToAssign(a, calendar).solutions| ==>
      SearchDayToAssign(a, calendar).solutions[k].newEndDate == CandidateEnds(a.endOfActivity, a.startOfActivity)[i]
  {
    var st;
    st, i := SolvedFrom(a, calendar);
  }

  /**
   * No solution (401) exactly when the strategy is known and no candidate end
   * date leaves room for the estimate; in particular an estimate of 0 hours
   * is never scheduled.
   */
  lemma NotAssignedIff(a: Activity, calendar: seq<CalendarDay>)
    ensures SearchDayToAssign(a, calendar).code == 401 <==>
      && ParseStrategy(a.strategy).Some?
      && forall d :: Candidate(d, a.endOfActivity, a.startOfActivity) ==>
           !Fits(a.estimatedHours, a.startOfActivity, d, calendar, BusyMap(calendar))
  {
    var candidates := CandidateEnds(a.endOfActivity, a.startOfActivity);
    var busy := BusyMap(calendar);
    var r := SearchDayToAssign(a, calendar);
    if ParseStrategy(a.strategy).Some? {
      var st := ParseStrategy(a.strategy).value;
      var f := FirstSuccess(st, a.estimatedHours, a.startOfActivity, candidates, calendar, busy);
      assert r.code == 401 <==> f.None?;
      if f.None? {
        forall d | Candidate(d, a.endOfActivity, a.startOfActivity)
          ensures !Fits(a.estimatedHours, a.startOfActivity, d, calendar, busy)
        {
          assert d in candidates;
        }
      } else {
        var i := f.value;
        assert candidates[i] in candidates;
        assert Candidate(candidates[i], a.endOfActivity, a.startOfActivity);
      }
    }
  }

  /** An estimate of 0 hours is never scheduled. */
  lemma ZeroHoursNotAssigned(a: Activity, calendar: seq<CalendarDay>)
    requires ParseStrategy(a.strategy).Some? && a.estimatedHours <= 0
    ensures SearchDayToAssign(a, calendar).code == 401
  {
    NotAssignedIff(a, calendar);
  }

  /**
   * The end date moves only as far as it must: every output solution carries
   * the chosen end date, which fits, while every candidate tried before it
   * (a smaller move forward, or any move forward before a move back) does not.
   */
  lemma ChosenEndIsFirstFit(a: Activity, calendar: seq<CalendarDay>) returns (d: int)
    requires SearchDayToAssign(a, calendar).Solved?
    ensures Candidate(d, a.endOfActivity, a.startOfActivity)
    ensures Fits(a.estimatedHours, a.startOfActivity, d, calendar, BusyMap(calendar))
    ensures forall e :: Candidate(e, a.endOfActivity, a.startOfActivity) && Priority(e - a.endOfActivity) < Priority(d - a.endOfActivity) ==>
      !Fits(a.estimatedHours, a.startOfActivity, e, calendar, BusyMap(calendar))
    ensures forall k :: 0 <= k < |SearchDayToAssign(a, calendar).solutions| ==>
      SearchDayToAssign(a, calendar).solutions[k].newEndDate == d
  {
    var end := a.endOfActivity;
    var candidates := CandidateEnds(end, a.startOfActivity);
    var i := SolvedAt(a, calendar);
    d := candidates[i];
    assert d in candidates;
    EarlierCandidatesFail(a.estimatedHours, a.startOfActivity, end, candidates, i, calendar, BusyMap(calendar));
  }

  /** In a priority-ordered list of all candidates, the first fit beats every candidate of higher priority. */
  lemma EarlierCandidatesFail(est: int, start: Option<int>, end: int, candidates: seq<int>, i: int, calendar: seq<CalendarDay>, busy: map<int, int>)
    requires candidates == CandidateEnds(end, start)
    requires 0 <= i < |candidates| && FirstFit(est, start, candidates, i, calendar, busy)
    ensures forall e :: Candidate(e, end, start) && Priority(e - end) < Priority(candidates[i] - end) ==>
      !Fits(est, start, e, calendar, busy)
  {
    forall e | Candidate(e, end, start) && Priority(e - end) < Priority(candidates[i] - end)
      ensures !Fits(est, start, e, calendar, busy)
    {
      assert e in candidates;
      var j :| 0 <= j < |candidates| && candidates[j] == e;
      assert j < i;
    }
  }

  /** A schedule line and its calendar line: a calendar day of the window ending at endDate, given positive hours within its free time. */
  predicate FitsCalendar(e: ScheduleEntry, m: ModifiedDay, start: Option<int>, endDate: int, calendar: seq<CalendarDay>, busy: map<int, int>) {
    && e.assignedHours > 0
    && m.calendarDate == e.calendarDate
    && WindowStart(start, endDate) <= e.calendarDate <= endDate
    && e.assignedHours <= Capacity(m.dayType) - BusyHours(busy, e.calendarDate)
    && exists i :: 0 <= i < |calendar| && calendar[i].calendarDate == e.calendarDate && calendar[i].dayType == m.dayType
  }

  lemma EntryFitsCalendar(e: Entry, start: Option<int>, endDate: int, calendar: seq<CalendarDay>, busy: map<int, int>)
    requires FitsWindow(e, AvailableDays(start, endDate, calendar, busy))
    ensures FitsCalendar(ScheduleEntry(e.calendarDate, e.assignedHours), ModifiedDay(e.calendarDate, e.dayType, Status(e)),
      start, endDate, calendar, busy)
  {
    var days := AvailableDays(start, endDate, calendar, busy);
    var p :| 0 <= p < |days| && FitsDay(e, days[p]);
    AvailableInMembers(WindowStart(start, endDate), endDate, calendar, busy);
    assert days[p] in days;
    var q :| 0 <= q < |calendar| && Eligible(calendar[q], WindowStart(start, endDate), endDate, busy)
      && days[p] == ToAvailable(calendar[q], busy);
  }

  /** The hours of a formatted schedule are the hours of the solution. */
  lemma {:induction false} ScheduledHours(s: Solution, endDate: int)
    ensures Scheduled(FormatSolution(s, endDate).schedule) == Hours(s)
    decreases |s|
  {
    if s != [] {
      ScheduledHours(s[1..], endDate);
      var sched := FormatSolution(s, endDate).schedule;
      assert sched[1..] == FormatSolution(s[1..], endDate).schedule;
    }
  }

  /**
   * Every output solution schedules exactly the estimated hours, each line on a
   * calendar day of the window ending at its new end date, with positive
   * hours that fit in the day's capacity minus its busy hours.
   */
  lemma OutputSound(a: Activity, calendar: seq<CalendarDay>)
    requires SearchDayToAssign(a, calendar).Solved?
    ensures forall k :: 0 <= k < |SearchDayToAssign(a, calendar).solutions| ==>
      var o := SearchDayToAssign(a, calendar).solutions[k];
      && Scheduled(o.schedule) == a.estimatedHours
      && |o.schedule| == |o.modifiedCalendar|
      && forall j :: 0 <= j < |o.schedule| ==>
           FitsCalendar(o.schedule[j], o.modifiedCalendar[j], a.startOfActivity, o.newEndDate, calendar, BusyMap(calendar))
  {
    var busy := BusyMap(calendar);
    var st, i := SolvedFrom(a, calendar);
    var d := CandidateEnds(a.endOfActivity, a.startOfActivity)[i];
    var sols := Attempt(st, a.estimatedHours, a.startOfActivity, d, calendar, busy);
    var out := SearchDayToAssign(a, calendar).solutions;
    forall k | 0 <= k < |out|
      ensures Scheduled(out[k].schedule) == a.estimatedHours
      ensures |out[k].schedule| == |out[k].modifiedCalendar|
      ensures forall j :: 0 <= j < |out[k].schedule| ==>
        FitsCalendar(out[k].schedule[j], out[k].modifiedCalendar[j], a.startOfActivity, out[k].newEndDate, calendar, busy)
    {
      var s := sols[k];
      assert s in sols;
      AttemptSound(st, a.estimatedHours, a.startOfActivity, d, calendar, busy);
      ScheduledHours(s, d);
      forall j | 0 <= j < |s|
        ensures FitsCalendar(out[k].schedule[j], out[k].modifiedCalendar[j], a.startOfActivity, d, calendar, busy)
      {
        EntryFitsCalendar(s[j], a.startOfActivity, d, calendar, busy);
      }
    }
  }

  /** When the calendar lists each date once, no output schedule books a date twice. */
  lemma OutputDatesUnique(a: Activity, calendar: seq<CalendarDay>)
    requires SearchDayToAssign(a, calendar).Solved? && Distinct(Dates(calendar))
    ensures forall k :: 0 <= k < |SearchDayToAssign(a, calendar).solutions| ==>
      var o := SearchDayToAssign(a, calendar).solutions[k];
      forall i, j :: 0 <= i < j < |o.schedule| ==> o.schedule[i].calendarDate != o.schedule[j].calendarDate
  {
    var busy := BusyMap(calendar);
    var st, c := SolvedFrom(a, calendar);
    var d := CandidateEnds(a.endOfActivity, a.startOfActivity)[c];
    var sols := Attempt(st, a.estimatedHours, a.startOfActivity, d, calendar, busy);
    var out := SearchDayToAssign(a, calendar).solutions;
    AttemptUniqueDates(st, a.estimatedHours, a.startOfActivity, d, calendar, busy);
    forall k | 0 <= k < |out|
      ensures forall i, j :: 0 <= i < j < |out[k].schedule| ==> out[k].schedule[i].calendarDate != out[k].schedule[j].calendarDate
    {
      assert sols[k] in sols;
      assert out[k] == FormatSolution(sols[k], d);
      FormatKeepsDates(sols[k], d);
    }
  }

  lemma FormatKeepsDates(s: Solution, endDate: int)
    requires Distinct(EntryDates(s))
    ensures var sched := FormatSolution(s, endDate).schedule;
      forall i, j :: 0 <= i < j < |sched| ==> sched[i].calendarDate != sched[j].calendarDate
  {
    var sched := FormatSolution(s, endDate).schedule;
    forall i, j | 0 <= i < j < |sched|
      ensures sched[i].calendarDate != sched[j].calendarDate
    {
      assert sched[i].calendarDate == EntryDates(s)[i] && sched[j].calendarDate == EntryDates(s)[j];
    }
  }

  /** The aggressive strategy's output is in ranking order: strongest solution first. */
  lemma AggressiveOutputRanked(a: Activity, calendar: seq<CalendarDay>)
    requires SearchDayToAssign(a, calendar).Solved? && a.strategy == "Agresiva"
    ensures var out := SearchDayToAssign(a, calendar).solutions;
      forall i, j :: 0 <= i < j < |out| ==>
        |out[i].schedule| == |out[i].modifiedCalendar| && |out[j].schedule| == |out[j].modifiedCalendar| &&
        Unformat(out[i]) != [] && Unformat(out[j]) != [] && RankedBefore(Unformat(out[i]), Unformat(out[j]))
  {
    var busy := BusyMap(calendar);
    var st, c := SolvedFrom(a, calendar);
    var d := CandidateEnds(a.endOfActivity, a.startOfActivity)[c];
    var sols := Attempt(st, a.estimatedHours, a.startOfActivity, d, calendar, busy);
    var out := SearchDayToAssign(a, calendar).solutions;
    AttemptRanked(a.estimatedHours, a.startOfActivity, d, calendar, busy);
    forall k | 0 <= k < |out|
      ensures |out[k].schedule| == |out[k].modifiedCalendar| && Unformat(out[k]) == sols[k]
    {
      UnformatFormat(sols[k], d);
    }
  }
}

=== FILE: text.dfy ===
/**
 * The handful of Python string operations the data-preparation helpers use:
 * str.isdigit (on ASCII digits), int() of a digit string, str.replace(c, ""),
 * str.split(sep) and sep.join(parts).
 */
module Text {

  predicate IsDigit(c: char) {
    '0' <= c <= '9'
  }

  /** str.isdigit: non-empty and made of digits only. */
  predicate IsDigits(s: string) {
    |s| > 0 && forall i :: 0 <= i < |s| ==> IsDigit(s[i])
  }

  /** int(s) for a string of decimal digits. */
  function ParseNat(s: string): (n: nat)
    requires forall i :: 0 <= i < |s| ==> IsDigit(s[i])
    ensures |s| == 1 ==> n == DigitValue(s[0])
  {
    if |s| == 0 then 0
    else 10 * ParseNat(s[..|s| - 1]) + DigitValue(s[|s| - 1])
  }

  function DigitValue(c: char): (d: nat)
    requires IsDigit(c)
    ensures d <= 9
  {
    c as int - '0' as int
  }

  /** Appending a digit shifts the value one decimal place and adds the digit. */
  lemma ParseNatAppend(s: string, c: char)
    requires forall i :: 0 <= i < |s| ==> IsDigit(s[i])
    requires IsDigit(c)
    ensures ParseNat(s + [c]) == 10 * ParseNat(s) + DigitValue(c)
  {
    assert (s + [c])[..|s|] == s;
  }

  /** Number of occurrences of c in s. */
  function Count(s: string, c: char): (n: nat)
    ensures n <= |s|
    ensures n == 0 <==> c !in s
  {
    if s == [] then 0 else (if s[0] == c then 1 else 0) + Count(s[1..], c)
  }

  /** s.replace(c, ""): every occurrence of c removed, everything else kept in order. */
  function RemoveChar(s: string, c: char): (r: string)
    ensures c !in r
    ensures |r| == |s| - Count(s, c)
  {
    if s == [] then []
    else (if s[0] == c then [] else [s[0]]) + RemoveChar(s[1..], c)
  }

  /** Removing one character keeps every other character that occurs. */
  lemma {:induction false} RemoveCharKeeps(s: string, c: char, x: char)
    requires x in s && x != c
    ensures x in RemoveChar(s, c)
    decreases |s|
  {
    if s[0] != x {
      RemoveCharKeeps(s[1..], c, x);
    }
  }

  /**
   * s.split(sep) for a non-empty separator: occurrences are found left to right
   * without overlap, and the pieces between them are returned (possibly empty).
   */
  function Split(s: string, sep: string): (parts: seq<string>)
    requires |sep| > 0
    ensures |parts| >= 1
    decreases |s|
  {
    if |s| < |sep| then [s]
    else if s[..|sep|] == sep then [""] + Split(s[|sep|..], sep)
    else
      var rest := Split(s[1..], sep);
      [[s[0]] + rest[0]] + rest[1..]
  }

  /** sep.join(parts). */
  function Join(parts: seq<string>, sep: string): string {
    if |parts| == 0 then ""
    else if |parts| == 1 then parts[0]
    else parts[0] + sep + Join(parts[1..], sep)
  }

  /** Joining the pieces of a split with the same separator gives the string back. */
  lemma {:induction false} JoinSplit(s: string, sep: string)
    requires |sep| > 0
    ensures Join(Split(s, sep), sep) == s
    decreases |s|
  {
    if |s| < |sep| {
    } else if s[..|sep|] == sep {
      var rest := Split(s[|sep|..], sep);
      assert Split(s, sep) == [""] + rest;
      JoinSplit(s[|sep|..], sep);
      JoinCons("", rest, sep);
      assert s == sep + s[|sep|..];
    } else {
      var rest := Split(s[1..], sep);
      assert Split(s, sep) == [[s[0]] + rest[0]] + rest[1..];
      JoinSplit(s[1..], sep);
      JoinPrefixFirst(s[0], rest, sep);
      assert s == [s[0]] + s[1..];
    }
  }

  /** Joining a piece in front of a non-empty list puts the separator between them. */
  lemma JoinCons(p: string, parts: seq<string>, sep: string)
    requires |parts| >= 1
    ensures Join([p] + parts, sep) == p + sep + Join(parts, sep)
  {
    assert ([p] + parts)[1..] == parts;
  }

  /** Prefixing the first piece prefixes the join. */
  lemma JoinPrefixFirst(c: char, parts: seq<string>, sep: string)
    requires |parts| >= 1
    ensures Join([[c] + parts[0]] + parts[1..], sep) == [c] + Join(parts, sep)
  {
    var q := [[c] + parts[0]] + parts[1..];
    assert q[0] == [c] + parts[0] && q[1..] == parts[1..];
    if |parts| > 1 {
      assert Join(q, sep) == q[0] + sep + Join(q[1..], sep);
    }
  }

  /** A string that never holds the separator's first character splits into itself alone. */
  lemma {:induction false} SplitWithout(p: string, sep: string)
    requires |sep| > 0 && sep[0] !in p
    ensures Split(p, sep) == [p]
    decreases |p|
  {
    if |p| >= |sep| {
      assert p[..|sep|][0] == p[0];
      SplitWithout(p[1..], sep);
      assert p == [p[0]] + p[1..];
    }
  }

  /** Splitting at the first separator separates the piece before it. */
  lemma {:induction false} SplitAt(p: string, sep: string, t: string)
    requires |sep| > 0 && sep[0] !in p
    ensures Split(p + sep + t, sep) == [p] + Split(t, sep)
    decreases |p|
  {
    var s := p + sep + t;
    if p == [] {
      assert s[..|sep|] == sep;
      assert s[|sep|..] == t;
    } else {
      assert s[..|sep|][0] == p[0];
      assert s[1..] == p[1..] + sep + t;
      SplitAt(p[1..], sep, t);
      assert [p[0]] + p[1..] == p;
    }
  }

  /** Splitting a join recovers the pieces, when no piece holds the separator's first character. */
  lemma {:induction false} SplitJoin(parts: seq<string>, sep: string)
    requires |parts| >= 1 && |sep| > 0
    requires forall i :: 0 <= i < |parts| ==> sep[0] !in parts[i]
    ensures Split(Join(parts, sep), sep) == parts
    decreases |parts|
  {
    if |parts| == 1 {
      SplitWithout(parts[0], sep);
    } else {
      SplitJoin(parts[1..], sep);
      SplitAt(parts[0], sep, Join(parts[1..], sep));
      assert parts == [parts[0]] + parts[1..];
    }
  }

  /** A character of a join that is not in the separator comes from one of the pieces. */
  lemma {:induction false} JoinMember(parts: seq<string>, sep: string, x: char)
    requires x in Join(parts, sep) && x !in sep
    ensures exists i :: 0 <= i < |parts| && x in parts[i]
    decreases |parts|
  {
    if |parts| >= 2 {
      if x !in parts[0] {
        JoinMember(parts[1..], sep, x);
        var i :| 0 <= i < |parts[1..]| && x in parts[1..][i];
        assert x in parts[i + 1];
      }
    }
  }

  /** No piece of a split on one character contains that character. */
  lemma {:induction false} SplitPiecesWithout(s: string, c: char)
    ensures forall i :: 0 <= i < |Split(s, [c])| ==> c !in Split(s, [c])[i]
    decreases |s|
  {
    if |s| >= 1 {
      SplitPiecesWithout(s[1..], c);
      if s[..1] != [c] {
        assert s[0] != c;
      }
    }
  }

  /** Every character of every piece occurs in the join. */
  lemma {:induction false} JoinContains(parts: seq<string>, sep: string, i: nat, x: char)
    requires i < |parts| && x in parts[i]
    ensures x in Join(parts, sep)
    decreases |parts|
  {
    if |parts| >= 2 && i > 0 {
      JoinContains(parts[1..], sep, i - 1, x);
    }
  }

  /** A join is never shorter than its first piece. */
  lemma JoinFirst(parts: seq<string>, sep: string)
    requires |parts| >= 1
    ensures |Join(parts, sep)| >= |parts[0]|
  {
  }

  /** Removing a character distributes over concatenation. */
  lemma {:induction false} RemoveCharConcat(s: string, t: string, c: char)
    ensures RemoveChar(s + t, c) == RemoveChar(s, c) + RemoveChar(t, c)
    decreases |s|
  {
    if s != [] {
      assert (s + t)[1..] == s[1..] + t;
      RemoveCharConcat(s[1..], t, c);
    } else {
      assert s + t == t;
    }
  }

  /** Removing a character that does not occur changes nothing. */
  lemma {:induction false} RemoveCharAbsent(s: string, c: char)
    requires c !in s
    ensures RemoveChar(s, c) == s
    decreases |s|
  {
    if s != [] {
      RemoveCharAbsent(s[1..], c);
      assert s == [s[0]] + s[1..];
    }
  }
}

=== FILE: week_spec.dfy ===
/**
 * The week-column parser of the data-preparation script: a teaching-plan
 * "Semana" cell is expanded into the list of week numbers it denotes.
 *   "a-b"        the weeks a..b inclusive
 *   "a, b, c"    the listed weeks
 *   "n: ..."     week n (a dated entry)
 *   "n"          week n
 *   anything else no weeks
 * The range form raises a ValueError (from int() or from tuple unpacking)
 * unless there is exactly one '-' between two digit runs.
 */
module WeekSpec {
  import opened Wrappers
  import opened Text

  datatype ParseError = ValueError

  /** Python's range(lo, hi): the integers lo, lo+1, ..., hi-1, empty when hi <= lo. */
  function Range(lo: int, hi: int): (r: seq<int>)
    ensures |r| == if hi <= lo then 0 else hi - lo
    ensures forall i :: 0 <= i < |r| ==> r[i] == lo + i
    decreases hi - lo
  {
    if hi <= lo then [] else [lo] + Range(lo + 1, hi)
  }

  predicate AllDigits(parts: seq<string>) {
    forall i :: 0 <= i < |parts| ==> IsDigits(parts[i])
  }

  /** int() applied to each piece, in order. */
  function ParseAll(parts: seq<string>): (r: seq<int>)
    requires AllDigits(parts)
    ensures |r| == |parts|
    ensures forall i :: 0 <= i < |parts| ==> r[i] == ParseNat(parts[i])
  {
    if parts == [] then [] else [ParseNat(parts[0])] + ParseAll(parts[1..])
  }

  /** Guard of the range branch: a '-' is present and removing every '-' leaves only digits. */
  predicate RangeGuard(week: string) {
    '-' in week && IsDigits(RemoveChar(week, '-'))
  }

  /** Guard of the list branch: a ',' is present and every ", "-separated piece is digits. */
  predicate ListGuard(week: string) {
    ',' in week && AllDigits(Split(week, ", "))
  }

  /** Guard of the dated branch: a ':' is present and the text before the first ':' is digits. */
  predicate DatedGuard(week: string) {
    ':' in week && IsDigits(Split(week, ":")[0])
  }

  function ExpandRanges(week: string): (r: Result<seq<int>, ParseError>)
    ensures r.Failure? ==> RangeGuard(week)
  {
    if RangeGuard(week) then ExpandRange(Split(week, "-")) else ExpandOther(week)
  }

  /** The range branch: int() of both sides of the single '-', or a ValueError. */
  function ExpandRange(bounds: seq<string>): Result<seq<int>, ParseError> {
    if |bounds| == 2 && IsDigits(bounds[0]) && IsDigits(bounds[1]) then
      Success(Range(ParseNat(bounds[0]), ParseNat(bounds[1]) + 1))
    else
      Failure(ValueError)
  }

  /** The list, dated, number and fallback branches; none of them raises. */
  function ExpandOther(week: string): (r: Result<seq<int>, ParseError>)
    ensures r.Success?
  {
    if ListGuard(week) then
      Success(ParseAll(Split(week, ", ")))
    else if DatedGuard(week) then
      Success([ParseNat(Split(week, ":")[0])])
    else if IsDigits(week) then
      Success([ParseNat(week)])
    else
      Success([])
  }

  /** "a-b" with two digit runs gives the ascending inclusive range a..b (empty when a > b). */
  lemma RangeCase(a: string, b: string)
    requires IsDigits(a) && IsDigits(b)
    ensures ExpandRanges(a + "-" + b) == Success(Range(ParseNat(a), ParseNat(b) + 1))
    ensures ParseNat(a) > ParseNat(b) ==> ExpandRanges(a + "-" + b) == Success([])
  {
    SplitRange(a, b);
    RangeOf(a, b);
    RangeGuardOf(a, b);
  }

  lemma RangeOf(a: string, b: string)
    requires IsDigits(a) && IsDigits(b)
    ensures ExpandRange([a, b]) == Success(Range(ParseNat(a), ParseNat(b) + 1))
  {
  }

  lemma SplitRange(a: string, b: string)
    requires IsDigits(a) && IsDigits(b)
    ensures Split(a + "-" + b, "-") == [a, b]
  {
    SplitAt(a, "-", b);
    SplitWithout(b, "-");
  }

  lemma RangeGuardOf(a: string, b: string)
    requires IsDigits(a) && IsDigits(b)
    ensures RangeGuard(a + "-" + b)
  {
    RemoveDash(a, b);
    RemoveCharAbsent(a, '-');
    RemoveCharAbsent(b, '-');
    DigitsConcat(a, b);
    assert (a + "-" + b)[|a|] == '-';
  }

  /** Removing the dashes around one '-' removes them from each side. */
  lemma RemoveDash(a: string, b: string)
    ensures RemoveChar(a + "-" + b, '-') == RemoveChar(a, '-') + RemoveChar(b, '-')
  {
    var t := ['-'] + b;
    assert a + "-" + b == a + t;
    assert t[0] == '-' && t[1..] == b;
    assert RemoveChar(t, '-') == RemoveChar(b, '-');
    RemoveCharConcat(a, t, '-');
  }

  lemma DigitsConcat(a: string, b: string)
    requires IsDigits(a) && IsDigits(b)
    ensures IsDigits(a + b)
  {
    forall i | 0 <= i < |a + b|
      ensures IsDigit((a + b)[i])
    {
      if i < |a| { assert (a + b)[i] == a[i]; } else { assert (a + b)[i] == b[i - |a|]; }
    }
  }

  /**
   * The range branch raises exactly when the string is not one '-' between two digit
   * runs: "-3", "3-" and "1-2-3" raise; no other branch ever raises.
   */
  lemma FailsExactly(week: string)
    ensures ExpandRanges(week).Failure? <==>
      RangeGuard(week) && !exists a, b :: IsDigits(a) && IsDigits(b) && week == a + "-" + b
  {
    if RangeGuard(week) {
      var bounds := Split(week, "-");
      if ExpandRanges(week).Success? {
        JoinSplit(week, "-");
        assert week == bounds[0] + "-" + bounds[1];
      } else if exists a, b :: IsDigits(a) && IsDigits(b) && week == a + "-" + b {
        var a, b :| IsDigits(a) && IsDigits(b) && week == a + "-" + b;
        RangeCase(a, b);
        assert false;
      }
    }
  }

  /** "a, b, c" (two or more digit runs joined by ", ") gives those numbers in order. */
  lemma ListCase(parts: seq<string>)
    requires |parts| >= 2 && AllDigits(parts)
    ensures ExpandRanges(Join(parts, ", ")) == Success(ParseAll(parts))
  {
    var w := Join(parts, ", ");
    SplitJoin(parts, ", ");
    assert ',' in w by {
      assert w == parts[0] + ", " + Join(parts[1..], ", ");
      assert w[|parts[0]|] == ',';
    }
    assert !IsDigits(RemoveChar(w, '-')) by {
      RemoveCharKeeps(w, '-', ',');
      var i :| 0 <= i < |RemoveChar(w, '-')| && RemoveChar(w, '-')[i] == ',';
    }
  }

  /** "n: ..." gives the single week n, whatever follows the ':'. */
  lemma DatedCase(n: string, rest: string)
    requires IsDigits(n)
    ensures ExpandRanges(n + ":" + rest) == Success([ParseNat(n)])
  {
    var w := n + ":" + rest;
    SplitAt(n, ":", rest);
    assert ':' in w by { assert w[|n|] == ':'; }
    assert !IsDigits(RemoveChar(w, '-')) by {
      RemoveCharKeeps(w, '-', ':');
      var i :| 0 <= i < |RemoveChar(w, '-')| && RemoveChar(w, '-')[i] == ':';
    }
    if ',' in w {
      var pieces := Split(w, ", ");
      JoinSplit(w, ", ");
      JoinMember(pieces, ", ", ':');
      var i :| 0 <= i < |pieces| && ':' in pieces[i];
      assert !IsDigits(pieces[i]);
    }
  }

  /** A plain digit run gives the single week it denotes. */
  lemma NumberCase(n: string)
    requires IsDigits(n)
    ensures ExpandRanges(n) == Success([ParseNat(n)])
  {
    assert '-' !in n && ',' !in n && ':' !in n;
  }

  /**
   * Text in none of the four forms gives no weeks, unless it passes the range
   * guard (dashes around digits, as in "-3" or "1-2-3"), in which case it raises.
   */
  lemma OtherInput(w: string)
    requires !exists a, b :: IsDigits(a) && IsDigits(b) && w == a + "-" + b
    requires !exists parts :: |parts| >= 2 && AllDigits(parts) && w == Join(parts, ", ")
    requires !exists n, rest :: IsDigits(n) && w == n + ":" + rest
    requires !IsDigits(w)
    ensures ExpandRanges(w) == if RangeGuard(w) then Failure(ValueError) else Success([])
  {
    if RangeGuard(w) {
      FailsExactly(w);
    } else if ListGuard(w) {
      JoinSplit(w, ", ");
      assert false;
    } else if DatedGuard(w) {
      JoinSplit(w, ":");
      assert false;
    }
  }

  /** A comma without the following space is not a list: "1,3" gives no weeks. */
  lemma CommaWithoutSpace()
    ensures ExpandRanges("1,3") == Success([])
  {
    var w := "1,3";
    assert w[1] == ',' && !IsDigit(w[1]);
    assert w[..2] != ", " by { assert w[..2][1] == ','; assert w[..2][0] == '1'; }
    assert w[1..][..2] != ", " by { assert w[1..][..2][1] == '3'; }
    assert Split(w, ", ") == [w] by {
      assert w[1..] == ",3" && w[1..][1..] == "3";
      assert Split("3", ", ") == ["3"];
      assert ",3"[..2] != ", " by { assert ",3"[..2][1] == '3'; }
      assert ",3"[1..] == "3";
      assert [','] + "3" == ",3";
      assert Split(",3", ", ") == [",3"];
      assert "1,3"[..2] != ", " by { assert "1,3"[..2][0] == '1'; }
      assert ['1'] + ",3" == "1,3";
    }
    assert ':' !in w;
  }

  /** The empty cell gives no weeks. */
  lemma EmptyCell()
    ensures ExpandRanges("") == Success([])
  {
  }

  /** A range without a lower bound raises. */
  lemma MissingLowerBound()
    ensures ExpandRanges("-3") == Failure(ValueError)
  {
    var w := "-3";
    assert w == [] + "-" + "3";
    SplitAt([], "-", "3");
    SplitWithout("3", "-");
    assert RemoveChar(w, '-') == "3" by {
      assert w[0] == '-' && w[1..] == "3";
      RemoveCharAbsent("3", '-');
    }
  }

  /** A range with two dashes raises. */
  lemma TwoDashes()
    ensures ExpandRanges("1-2-3") == Failure(ValueError)
  {
    var w := "1-2-3";
    TwoDashesPieces();
    TwoDashesDigits();
    assert w[1] == '-';
    assert IsDigits("123");
    assert RangeGuard(w);
    assert ExpandRange(Split(w, "-")) == Failure(ValueError);
  }

  lemma TwoDashesPieces()
    ensures |Split("1-2-3", "-")| == 3
  {
  }

  lemma TwoDashesDigits()
    ensures RemoveChar("1-2-3", '-') == "123"
  {
  }
}

=== FILE: wrappers.dfy ===
/**
 * Option and Result, the two failure-carrying datatypes the model uses, and
 * the small generic helpers shared by several modules.
 */
module Wrappers {

  datatype Option<+T> = None | Some(value: T)

  datatype Result<+R, +E> = Success(value: R) | Failure(error: E)

  function Min(a: int, b: int): (m: int)
    ensures m <= a && m <= b
    ensures m == a || m == b
  {
    if a <= b then a else b
  }

  /** No element occurs twice. */
  predicate Distinct<T(==)>(xs: seq<T>) {
    forall i, j :: 0 <= i < j < |xs| ==> xs[i] != xs[j]
  }

  /** Two distinct sequences with no common element concatenate to a distinct sequence. */
  lemma DistinctConcat<T>(xs: seq<T>, ys: seq<T>)
    requires Distinct(xs) && Distinct(ys)
    requires forall x :: x in xs ==> x !in ys
    ensures Distinct(xs + ys)
  {
    var zs := xs + ys;
    forall i, j | 0 <= i < j < |zs|
      ensures zs[i] != zs[j]
    {
      if j < |xs| {
        assert zs[i] == xs[i] && zs[j] == xs[j];
      } else if i >= |xs| {
        assert zs[i] == ys[i - |xs|] && zs[j] == ys[j - |xs|];
      } else {
        assert zs[i] == xs[i] && zs[j] == ys[j - |xs|];
        assert xs[i] in xs;
      }
    }
  }

  /** A distinct sequence holds each value at most once. */
  lemma {:induction false} DistinctMultiplicity<T>(xs: seq<T>, v: T)
    requires Distinct(xs)
    ensures multiset(xs)[v] <= 1
  {
    if xs != [] {
      assert xs == [xs[0]] + xs[1..];
      assert Distinct(xs[1..]) by {
        forall i, j | 0 <= i < j < |xs[1..]|
          ensures xs[1..][i] != xs[1..][j]
        {
          assert xs[1..][i] == xs[i + 1] && xs[1..][j] == xs[j + 1];
        }
      }
      DistinctMultiplicity(xs[1..], v);
      if xs[0] == v {
        forall k | 0 <= k < |xs[1..]|
          ensures xs[1..][k] != v
        {
          assert xs[1..][k] == xs[k + 1];
        }
        assert v !in multiset(xs[1..]);
      }
    }
  }

  /** Reordering keeps a sequence distinct. */
  lemma DistinctPermutation<T>(xs: seq<T>, ys: seq<T>)
    requires multiset(xs) == multiset(ys) && Distinct(xs)
    ensures Distinct(ys)
  {
    forall i, j | 0 <= i < j < |ys|
      ensures ys[i] != ys[j]
    {
      if ys[i] == ys[j] {
        var v := ys[i];
        assert ys == ys[..j] + ys[j..];
        assert multiset(ys) == multiset(ys[..j]) + multiset(ys[j..]);
        assert ys[..j][i] == v && ys[j..][0] == v;
        assert v in multiset(ys[..j]) && v in multiset(ys[j..]);
        DistinctMultiplicity(xs, v);
        assert false;
      }
    }
  }

  lemma SeqAssoc<T>(a: seq<T>, b: seq<T>, c: seq<T>)
    ensures a + (b + c) == (a + b) + c
  {
  }
}
